=== FILE: README.md ===
# metapensiero.asyncio.transaction — a Dafny model of the transaction bookkeeping

`metapensiero.asyncio.transaction` lets synchronous code (a special
method, a callback) hand coroutines to an asyncio *transaction* that the
surrounding task later waits for or ends. A transaction is bound to the
task that opened it through a per-task stack kept in the module-level
registry `TRANSACTIONS`; scopes opened with `with` push onto the fallback
stack `TMP_CONTEXT`. Every coroutine added to a transaction is scheduled
as a task of its own and gets a child transaction bound to that task, so
work added from inside it is collected under the same tree. Ending a
transaction ends its children first, drains its pending work and removes
it from the registry; a task that finishes with a root transaction still
holding work is reported as a leak.

This project models that bookkeeping as a pure state machine over one
`State` value (registry, all transaction records, the context stack, and
counters that hand out fresh identities) and proves its contracts:

- `types.dfy` — identities, the transaction record, the state, the errors.
- `registry.dfy` — binding (`_set_transaction_id`), `remove`, `get`,
  `__enter__`/`__exit__`, and the registry invariant: no empty stack, and
  the i-th transaction of task k carries the id (k, i).
- `transaction.dfy` — `__init__`, `begin`, `__aenter__`, `add` with its
  de-duplication and child spawning, `wait`, the owner task's
  finalization callback, and the whole-state invariant `Valid`.
- `closing.dfy` — `end` (children first, then drain, close, remove),
  module-level `end` and `wait`, and `wait_all`.
- `properties.dfy` — lemmas relating several operations: round trips,
  what `add` leaves for `get` and `wait`, when `end` succeeds, and what
  the finalization callback reports.

Modelling choices:

- Tasks and futures are opaque identities. A task that `add` creates by
  scheduling a bare coroutine is `Spawned(n)`, fresh by a counter; any
  other task or future is `External(n)`. Awaiting is never modelled:
  `wait` returns the combinator `Gather(handles)` over exactly the pending
  handles, and `end` stores the same value (or nothing) in its slot.
- `add` skips an argument already pending. A coroutine object is never
  equal to a scheduled task, so only a future or task given to `add` can
  be skipped this way; a coroutine is always scheduled afresh.
- The guard of `add` reads `self.ending or not open`. There `open` is the
  builtin function, not the field, so `not open` is always false. The
  model keeps that guard as written (`Transaction.AddGuardOpen`), and a
  lemma shows it makes no difference: a transaction that is not open is
  always ending.
- `end` is one atomic step. It marks the transaction ending, ends the
  children one after another in list order, drains the pending handles,
  marks it closed and pops it from the registry. If `remove` hits a
  missing stack (`KeyError`) or finds another transaction on top (its
  `assert`), the whole call yields `Err(RegistryCorrupt)`, and the
  partially updated state is discarded.
- Calls that can find nothing take the ambient task (`current_task()`) as
  an explicit `Option<TaskId>` parameter.
- `end` deletes the fields `registry`, `coros`, `loop`, `parent` and
  `children`. The model keeps them, and instead gives the two later reads
  that can reach them their own error, `FieldDeleted` (an
  `AttributeError` in the source). `__aenter__` on an unbound closed
  transaction fails this way, because finding the ambient task reads
  `loop`. `add` on a closed transaction fails this way too: building its
  `ValueError` message calls `__repr__`, which reads `coros`. An ending
  transaction that is still open gets the `ValueError` itself
  (`AddWhileEnding`). Every other later access is guarded by `open` or
  `ending`.
- Since a closed transaction can never be bound again, the invariant
  `Valid` asks that a bound transaction be registered exactly when it is
  open.
- `end` on a child that was begun without a task waits for the signal
  that the finalization callback of its owner task sets. No callback was
  ever attached to it, so it never resumes. The model returns
  `Err(NeverCompletes)` for that call, with the state unchanged: the wait
  comes before anything is written.

## Model

| member | source | states |
|---|---|---|
| Registry.Bind | src/metapensiero/asyncio/transaction/__init__.py:121-127 | the transaction gets id (task, old stack length) and is pushed on that task's stack; other stacks and records are untouched; the registry invariant is kept and the transaction ends up on top |
| Registry.SetTransactionId | src/metapensiero/asyncio/transaction/__init__.py:115-127 | fails with no task or with an id already set, and succeeds exactly otherwise; on success the stack of the task grows by exactly this transaction and no other stack changes |
| Registry.Remove | src/metapensiero/asyncio/transaction/__init__.py:234-244 | an unbound transaction is a no-op; on a well-formed registry, removal succeeds exactly when the transaction is on top of its task's stack; it pops just that entry, drops the key when the stack empties, moves no other stack, and the transaction is no longer registered |
| Registry.EntryIsUnique | src/metapensiero/asyncio/transaction/__init__.py:124-127 | a transaction occurs at most once in its task's stack, because each position carries its own index in the id |
| Registry.Get | src/metapensiero/asyncio/transaction/__init__.py:210-232 | lookup order: the last transaction pushed on the resolved task's stack, then the top of the context stack, then the default; it fails exactly when all three are missing |
| Registry.Enter | src/metapensiero/asyncio/transaction/__init__.py:76-78 | pushes the transaction on the context stack and changes nothing else |
| Registry.Exit | src/metapensiero/asyncio/transaction/__init__.py:80-82 | pops whatever is on top of the context stack and fails exactly on an empty stack |
| Transaction.NewTrans | src/metapensiero/asyncio/transaction/__init__.py:43-54 | the new transaction is fresh, open, not ending, unbound, has no pending work or children and the given parent; nothing else changes |
| Transaction.Begin | src/metapensiero/asyncio/transaction/__init__.py:154-171 | with an explicit or ambient task the new transaction is pushed on top of that task's stack, otherwise it stays unbound and the registry is unchanged |
| Transaction.AEnter | src/metapensiero/asyncio/transaction/__init__.py:56-65 | a bound transaction is returned unchanged; an unbound one fails on reading the deleted `loop` when it is closed, fails when there is no ambient task, and is otherwise pushed on top of the ambient task's stack and registered: only its id is set, to (task, old stack length), that task's stack grows by exactly it, no other stack or record changes and the context stack is untouched; the invariant is kept |
| Transaction.EnterValid | src/metapensiero/asyncio/transaction/__init__.py:76-78 | entering a scope keeps the whole-state invariant |
| Transaction.ExitValid | src/metapensiero/asyncio/transaction/__init__.py:80-82 | leaving a scope keeps the whole-state invariant |
| Transaction.Schedule | src/metapensiero/asyncio/transaction/__init__.py:144 | a future stands for itself; a coroutine gets a handle that did not exist before |
| Transaction.Spawn | src/metapensiero/asyncio/transaction/__init__.py:145-150 | a child transaction with the adder as parent is begun on the handle, freshly constructed (open, not ending, nothing pending, no children) and on top of the handle's stack, and the child and the handle are appended to the adder |
| Transaction.AddOne | src/metapensiero/asyncio/transaction/__init__.py:140-151 | one iteration keeps the invariant, returns a future as its own handle, and changes no transaction but the adder, and of the adder only its pending handles and children |
| Transaction.AddOneShape | src/metapensiero/asyncio/transaction/__init__.py:143-150 | a handle already pending leaves the state unchanged; otherwise exactly one child and the handle are appended, the child has the adder as parent and tops the handle's stack, and no other stack moves |
| Transaction.AddAll | src/metapensiero/asyncio/transaction/__init__.py:139-152 | the loop keeps the invariant and returns one handle per argument, a future standing for itself; every handle returned exists afterwards, a coroutine's handle did not exist before the call, and no other output equals it |
| Transaction.AddAllFrame | src/metapensiero/asyncio/transaction/__init__.py:139-152 | the loop changes no transaction but the adder, and of the adder only its pending handles and children; the context stack is untouched |
| Transaction.AddAllShape | src/metapensiero/asyncio/transaction/__init__.py:139-152 | the pending handles grow by the output with already pending ones and repeats dropped; each new handle comes with one new child, in the same order, freshly constructed with the adder as parent, which tops that handle's stack; no other stack moves |
| Transaction.Add | src/metapensiero/asyncio/transaction/__init__.py:129-152 | fails on an unbound transaction outside the context stack, on an ending one that is still open, and (while formatting the message, through `__repr__` reading the deleted `coros`) on a closed one, each with its own error, and succeeds exactly otherwise; on success the invariant holds and there is one handle per argument, a future standing for itself, a coroutine getting a handle that did not exist before and that no other output shares |
| Transaction.Wait | src/metapensiero/asyncio/transaction/__init__.py:246-259 | fails exactly on a closed transaction; otherwise yields a combinator over exactly the pending handles (nothing when none are pending), forgets them and leaves open and ending as they were |
| Transaction.OwnerTaskDone | src/metapensiero/asyncio/transaction/__init__.py:97-113 | with the transaction gone nothing happens; otherwise the task-ended signal is set, a signal already set raises, and a leak is reported exactly for an open transaction with pending work, as an error for a root and a warning for a child |
| Closing.Finish | src/metapensiero/asyncio/transaction/__init__.py:196-199 | closing marks the record not open and stores the drained handles in its slot, then removes the transaction; this succeeds exactly when it is unbound or on top; every other transaction stays registered exactly when it was, and only the owner task's stack changes, losing entries from its top |
| Closing.FinishValid | src/metapensiero/asyncio/transaction/__init__.py:196-199 | closing and removing a transaction keeps the whole-state invariant |
| Closing.End | src/metapensiero/asyncio/transaction/__init__.py:173-205 | on an ending transaction it returns the same slot and changes nothing; an unbound child never completes; the only other failure is a registry fault; on success the transaction ends closed with its pending handles drained into its slot, all its children are ending, it is no longer registered, only transactions that were not ending changed, each to its closed form, every stack only lost entries from its top, and a transaction stays registered exactly when it was and was left alone; that only its subtree is touched is `Closing.EndFrame` |
| Closing.EndChildren | src/metapensiero/asyncio/transaction/__init__.py:185-186 | fails only on a registry fault or a child that never completes; on success every child is ending and changes only transactions that were not ending, closing them and taking them off the top of their stacks, with no other registry change; that only their subtrees are touched is `Closing.EndChildrenFrame` |
| Closing.EndFrame | src/metapensiero/asyncio/transaction/__init__.py:173-205 | every transaction that `end` changes is the one ended or has a parent that `end` changed too: `end` touches only that transaction's subtree |
| Closing.EndChildrenFrame | src/metapensiero/asyncio/transaction/__init__.py:185-186 | every transaction that ending the children changes is one of those children or has a parent that changed too |
| Closing.EndLeavesOtherRoots | src/metapensiero/asyncio/transaction/__init__.py:173-205 | ending one transaction leaves every other root unchanged, still registered and still on top when it was |
| Closing.EndCurrent | src/metapensiero/asyncio/transaction/__init__.py:288-291 | fails like `None.end()` when `get` finds nothing; if it is ending already the call returns its slot and changes nothing; otherwise the call fails only on a registry fault or a child that never completes, and on success the transaction found is closed with the returned slot and unregistered, only transactions that were not ending changed, and every one that changed is the transaction found or has a parent that changed |
| Closing.WaitCurrent | src/metapensiero/asyncio/transaction/__init__.py:295-298 | fails like `None.wait()` when `get` finds nothing; otherwise it fails exactly when the transaction found is closed, and else returns the combinator over its pending handles, leaves none pending, and changes nothing else in the state |
| Closing.ClosesOnlyKeepsOnTop | src/metapensiero/asyncio/transaction/__init__.py:237-242 | a transaction on top of its stack that `end` left alone is still on top, since stacks only lose entries from their tops |
| Closing.EndLeafOk | src/metapensiero/asyncio/transaction/__init__.py:173-205 | `end` on a transaction without children that is ending already or on top of its task's stack succeeds |
| Closing.EndChildrenLeavesOk | src/metapensiero/asyncio/transaction/__init__.py:185-186 | ending a list of such children succeeds: ending one leaves each other one closed or still on top |
| Closing.EndWithLeafChildren | src/metapensiero/asyncio/transaction/__init__.py:173-205 | `end` on a transaction that is an unbound root or on top, whose children have no children of their own and are ending or on top, succeeds and resolves its slot to the drain of its pending handles |
| Closing.WaitAll | src/metapensiero/asyncio/transaction/__init__.py:261-281 | returns exactly the registered transactions without a parent, and nothing exactly when there are none |
| Properties.BindThenRemove | src/metapensiero/asyncio/transaction/__init__.py:234-244 | removing a transaction right after binding it restores the registry |
| Properties.GetAfterBegin | src/metapensiero/asyncio/transaction/__init__.py:154-171 | after `begin` under a task, `get` for that task returns the new transaction |
| Properties.EnterExit | src/metapensiero/asyncio/transaction/__init__.py:76-82 | leaving a scope right after entering it restores the state |
| Properties.GetAfterEnter | src/metapensiero/asyncio/transaction/__init__.py:224-225 | with no stack for the task, `get` returns the scope most recently entered |
| Properties.DedupKeeps | src/metapensiero/asyncio/transaction/__init__.py:143 | a handle that is not already pending survives de-duplication |
| Properties.DedupOfFresh | src/metapensiero/asyncio/transaction/__init__.py:143 | de-duplication keeps distinct new handles as they are |
| Properties.AddThenGet | src/metapensiero/asyncio/transaction/tests/test_transaction.py:296-299 | for every handle `add` appends, `get` with that handle as task returns a transaction whose parent is the adder |
| Properties.AppendedHasChild | src/metapensiero/asyncio/transaction/__init__.py:145-147 | after the loop of `add`, every handle it appended names a task whose top transaction is a child of the adder |
| Properties.AddThenWait | src/metapensiero/asyncio/transaction/__init__.py:253-256 | with nothing pending before, `wait` after `add` drains exactly the distinct handles `add` returned, in order of first occurrence, and drains something whenever `add` was given anything |
| Properties.AddCorosThenWait | src/metapensiero/asyncio/transaction/__init__.py:139-152 | coroutines given to `add` on a transaction with nothing pending get distinct handles, and `wait` then drains exactly those handles, in order |
| Properties.AddCorosThenEnd | src/metapensiero/asyncio/transaction/__init__.py:139-205 | for a root on top with nothing pending and no children, `add` of coroutines succeeds and the following `end` succeeds, resolving to the combinator over exactly the handles `add` returned |
| Properties.EndAfterAddingCoros | src/metapensiero/asyncio/transaction/__init__.py:173-205 | after `add` appended distinct new handles to such a root, or to an unbound root, `end` succeeds and resolves to the drain of those handles |
| Properties.BeginAddEnd | src/metapensiero/asyncio/transaction/__init__.py:139-205 | `begin` under a task, then `add` of coroutines, then `end`: every step succeeds and `end` resolves to the combinator over exactly the handles `add` returned |
| Properties.BeginEnterAddEnd | src/metapensiero/asyncio/transaction/tests/test_transaction.py:95-117 | `begin` outside any task, then inside a `with` block `get` finds the transaction and `add` of coroutines succeeds, leaving the block succeeds, and `end` then succeeds, resolving to the combinator over exactly the handles `add` returned |
| Properties.EnteredAddExitEnd | src/metapensiero/asyncio/transaction/__init__.py:76-205 | for an unbound root on top of the context stack with nothing pending and no children, `add` of coroutines, leaving the scope and `end` all succeed, and `end` resolves to the drain of the handles `add` returned |
| Properties.ExitThenEnd | src/metapensiero/asyncio/transaction/__init__.py:80-205 | after `add` appended distinct new handles to an unbound root, leaving the scope keeps the invariant and `end` resolves to the drain of those handles |
| Properties.WaitTwice | src/metapensiero/asyncio/transaction/__init__.py:253-258 | a second `wait` right after one finds nothing pending |
| Properties.EndIdempotent | src/metapensiero/asyncio/transaction/__init__.py:179 | a second `end` changes nothing and returns the same slot |
| Properties.EndChildrenAllEnding | src/metapensiero/asyncio/transaction/__init__.py:185-186 | ending children that are all ending already changes nothing |
| Properties.EndSucceedsIffOnTop | src/metapensiero/asyncio/transaction/__init__.py:173-244 | with its children ended, `end` succeeds exactly when the transaction is an unbound root or on top of its task's stack |
| Properties.AddGuardQuirkHarmless | src/metapensiero/asyncio/transaction/__init__.py:136 | under the invariant, the guard with the builtin `open` rejects exactly what a guard on the field would |
| Properties.RootLeakIsFatal | src/metapensiero/asyncio/transaction/__init__.py:106-113 | a root begun under a task and given a coroutine, whose task then finishes without `end`, raises a leak error |
| Properties.ChildLeakOnlyWarns | src/metapensiero/asyncio/transaction/__init__.py:109-110 | a child spawned by `add` is never reported as a fatal leak |
| Properties.EndedNeverLeaks | src/metapensiero/asyncio/transaction/__init__.py:103-106 | once `end` has run, the owner task finishing reports no leak |

## Left out

- The event loop, scheduling and awaiting: no coroutine runs, and handle results and exceptions are never computed. `wait` and `end` return the combinator they would await, and `end`'s `try`/`except` around it, which stores an exception in `ending_fut`, is not modelled.
- Closing.End: for a bound child whose owner task has not finished, the suspension on `task_ending_fut` (line 181) is not modelled; `end` is atomic, as if that task had already finished. Awaited from inside that very task, the source would wait forever. Interleavings with other tasks during that wait are not modelled either.
- The children are ended one after another, not concurrently as `asyncio.gather` does. A registry fault aborts the whole `end` instead of surfacing from `gather` after the others ran.
- The `cback` argument of `add` and `_add_finalization_cb`: callbacks are not modelled. `OwnerTaskDone` is the callback's body, applied to whatever the weak reference yields.
- Transaction.NewTrans: `__init__` takes the id as an argument (lines 43 and 47); the model constructs only unbound transactions, as `begin` does with `cls(None, ...)`, because binding then goes through `_set_transaction_id`. A transaction constructed directly with a ready-made id, which skips the registry, is not modelled.
- The `registry` parameter of `begin`, `get`, `wait_all`, `end`, `wait` and `__init__`: there is one registry, the module-level one.
- The `loop` and `timeout` parameters, `Transaction.gather`, the text `__repr__` builds (only its read of `coros` is modelled), logging, the `__debug__` caller info, the Python-version shims and the `inspect.isawaitable` assertion in `add`.
- `__aexit__` (lines 67-74): it calls `end` or logs, so it adds nothing beyond `Closing.End`.
- `id(task)` as registry key: the model keys by task identity directly. `get` with no task at all finds no stack, as `id(None)` never names a registered task.

=== FILE: closing.dfy ===
/**
 Closing transactions: `end` as one atomic step run after the owner task
 has finished, the module-level `end` and `wait`, and `wait_all`.
 */
module Closing {
  import opened Types
  import opened Registry
  import opened Transaction

  /** A record after `end` ran its body: ending, no longer open, its
      pending handles drained into the completion slot. */
  function Closed(r: Trans): Trans {
    r.(open := false, ending := true, coros := [], endSlot := Resolved(Drain(r.coros)))
  }

  /** The transactions `end` has not yet started on. */
  ghost function NonEnding(st: State): set<TransId> {
    set x | x in st.table && !st.table[x].ending
  }

  /** From `st` to `st'` nothing happened except that some transactions
      that were not ending got closed and left the registry: every stack
      only lost entries from its top, and a transaction is registered
      afterwards exactly when it was before and was left alone. */
  ghost predicate ClosesOnly(st: State, st': State) {
    && st'.table.Keys == st.table.Keys
    && st'.context == st.context
    && st'.nextTrans == st.nextTrans && st'.nextSpawn == st.nextSpawn
    && (forall x :: x in st.table ==>
         st'.table[x] == st.table[x] || (!st.table[x].ending && st'.table[x] == Closed(st.table[x])))
    && (forall x :: x in st.table ==>
         (Registered(st', x) <==> Registered(st, x) && st'.table[x] == st.table[x]))
    && (forall k :: StackOf(st', k) <= StackOf(st, k))
  }

  lemma ClosesOnlyTrans(a: State, b: State, c: State)
    requires ClosesOnly(a, b) && ClosesOnly(b, c)
    ensures ClosesOnly(a, c)
  {
  }

  lemma ClosesOnlyShrinks(a: State, b: State)
    requires ClosesOnly(a, b)
    ensures NonEnding(b) <= NonEnding(a)
  {
  }

  /** The last step of `end`: mark the transaction closed with its drained
      handles in the slot, then remove it from the registry. */
  function Finish(st: State, t: TransId): (r: Result<(State, Slot)>)
    requires Valid(st) && t in st.table && st.table[t].open
    ensures r.Ok? <==> st.table[t].id.None? || OnTop(st, t)
    ensures r.Err? ==> r.error == RegistryCorrupt
    ensures r.Ok? ==>
      && Valid(r.value.0)
      && r.value.0.table == st.table[t := Closed(st.table[t])]
      && r.value.1 == Closed(st.table[t]).endSlot
      && !Registered(r.value.0, t)
      && r.value.0.context == st.context
      && r.value.0.nextTrans == st.nextTrans && r.value.0.nextSpawn == st.nextSpawn
    ensures r.Ok? ==>
      && (forall x :: x != t ==> (Registered(r.value.0, x) <==> Registered(st, x)))
      && (forall k :: StackOf(r.value.0, k) <= StackOf(st, k))
      && (forall k :: (st.table[t].id.None? || k != st.table[t].id.value.task) ==>
            StackOf(r.value.0, k) == StackOf(st, k))
  {
    var rec := st.table[t];
    var st3 := st.(table := st.table[t := Closed(rec)]);
    assert WellFormed(st3) by {
      forall k | k in st3.registry
        ensures StackOk(st3, k)
      {
        assert StackOk(st, k);
      }
    }
    assert OnTop(st3, t) <==> OnTop(st, t);
    var st4 :- Remove(st3, t);
    FinishValid(st, t, st4);
    Ok((st4, Closed(rec).endSlot))
  }

  /** Closing and removing a transaction keeps the invariant. */
  lemma {:induction false} FinishValid(st: State, t: TransId, st4: State)
    requires Valid(st) && t in st.table && st.table[t].open
    requires Remove(st.(table := st.table[t := Closed(st.table[t])]), t) == Ok(st4)
    ensures Valid(st4)
  {
    var rec := st.table[t];
    var st3 := st.(table := st.table[t := Closed(rec)]);
    assert WellFormed(st3) by {
      forall k | k in st3.registry
        ensures StackOk(st3, k)
      {
        assert StackOk(st, k);
      }
    }
    forall x | x in st4.table
      ensures RecordOk(st4, x)
    {
      assert RecordOk(st, x);
      if x != t {
        assert Registered(st3, x) <==> Registered(st, x);
      }
    }
  }

  /** `end`. On a transaction already ending it returns the same slot and
      changes nothing. Otherwise, atomically: mark it ending, end its
      children in order, drain its own pending handles into the slot, mark
      it closed and remove it from the registry. A fault from the registry
      anywhere in the tree aborts the whole step. */
  function End(st: State, t: TransId): (r: Result<(State, Slot)>)
    requires Valid(st) && t in st.table
    ensures st.table[t].ending ==> r == Ok((st, st.table[t].endSlot))
    ensures !st.table[t].ending && st.table[t].parent.Some? && st.table[t].id.None? ==> r == Err(NeverCompletes)
    ensures r.Err? ==> r.error == RegistryCorrupt || r.error == NeverCompletes
    ensures r.Ok? ==> Valid(r.value.0) && ClosesOnly(st, r.value.0) && NonEnding(r.value.0) <= NonEnding(st)
    ensures r.Ok? ==> r.value.0.table[t].ending && r.value.1 == r.value.0.table[t].endSlot
    ensures r.Ok? && !st.table[t].ending ==>
      && r.value.0.table[t] == Closed(st.table[t])
      && !Registered(r.value.0, t)
      && forall c :: c in st.table[t].children ==> r.value.0.table[c].ending
    decreases NonEnding(st), 0, 0
  {
    var rec := st.table[t];
    if rec.ending then Ok((st, rec.endSlot))
    else if rec.parent.Some? && rec.id.None? then Err(NeverCompletes)
    else
      assert RecordOk(st, t);
      SetRecordValid(st, t, rec.(ending := true));
      var st1 := st.(table := st.table[t := rec.(ending := true)]);
      assert NonEnding(st1) == NonEnding(st) - {t};
      var st2 :- EndChildren(st1, rec.children);
      assert st2.table[t] == rec.(ending := true);
      var p :- Finish(st2, t);
      assert Closed(rec.(ending := true)) == Closed(rec);
      EndClosesOnly(st, t, st2, p.0);
      ClosesOnlyShrinks(st, p.0);
      Ok(p)
  }

  /** The steps of `end` compose: marking `t` ending, ending its children,
      then closing and removing `t`, only closes transactions. */
  lemma EndClosesOnly(st: State, t: TransId, st2: State, st4: State)
    requires t in st.table && st.table[t].open && !st.table[t].ending
    requires ClosesOnly(st.(table := st.table[t := st.table[t].(ending := true)]), st2)
    requires st2.table[t] == st.table[t].(ending := true)
    requires st4.table == st2.table[t := Closed(st.table[t])]
    requires st4.context == st2.context && st4.nextTrans == st2.nextTrans && st4.nextSpawn == st2.nextSpawn
    requires !Registered(st4, t)
    requires forall x :: x != t ==> (Registered(st4, x) <==> Registered(st2, x))
    requires forall k :: StackOf(st4, k) <= StackOf(st2, k)
    ensures ClosesOnly(st, st4)
  {
    var rec := st.table[t];
    var st1 := st.(table := st.table[t := rec.(ending := true)]);
    assert Closed(rec).open != rec.open;
    forall x | x in st.table && x != t
      ensures Registered(st4, x) <==> Registered(st, x) && st4.table[x] == st.table[x]
    {
      assert Registered(st1, x) <==> Registered(st, x);
    }
    forall k
      ensures StackOf(st4, k) <= StackOf(st, k)
    {
      assert StackOf(st1, k) == StackOf(st, k);
      assert StackOf(st4, k) <= StackOf(st2, k) <= StackOf(st1, k);
    }
  }

  /** The gathered `end` of the children, in list order. */
  function EndChildren(st: State, cs: seq<TransId>): (r: Result<State>)
    requires Valid(st) && forall c :: c in cs ==> c in st.table
    ensures r.Err? ==> r.error == RegistryCorrupt || r.error == NeverCompletes
    ensures r.Ok? ==> Valid(r.value) && ClosesOnly(st, r.value) && NonEnding(r.value) <= NonEnding(st)
    ensures r.Ok? ==> forall c :: c in cs ==> r.value.table[c].ending
    decreases NonEnding(st), 1, |cs|
  {
    if cs == [] then Ok(st)
    else
      var p :- End(st, cs[0]);
      var st2 :- EndChildren(p.0, cs[1..]);
      ClosesOnlyTrans(st, p.0, st2);
      Ok(st2)
  }

  /** The transaction `o` names exists on both sides and differs. */
  ghost predicate ChangedAt(st: State, st': State, o: Option<TransId>) {
    o.Some? && o.value in st.table && o.value in st'.table && st'.table[o.value] != st.table[o.value]
  }

  /** Every transaction that changed from `st` to `st'` is one of `tops`
      or has a parent that changed too: what changed hangs below `tops`. */
  ghost predicate ChangesBelow(st: State, st': State, tops: seq<TransId>) {
    forall x :: x in st.table && x in st'.table && st'.table[x] != st.table[x] ==>
      x in tops || ChangedAt(st, st', st.table[x].parent)
  }

  /** `end` touches only `t` and the transactions below it. */
  lemma {:induction false} EndFrame(st: State, t: TransId)
    requires Valid(st) && t in st.table && End(st, t).Ok?
    ensures ChangesBelow(st, End(st, t).value.0, [t])
    decreases NonEnding(st), 0, 0
  {
    var rec := st.table[t];
    if !rec.ending {
      assert RecordOk(st, t);
      SetRecordValid(st, t, rec.(ending := true));
      var st1 := st.(table := st.table[t := rec.(ending := true)]);
      assert NonEnding(st1) == NonEnding(st) - {t};
      var st2 := EndChildren(st1, rec.children).value;
      EndChildrenFrame(st1, rec.children);
      assert st2.table[t] == rec.(ending := true);
      var st4 := End(st, t).value.0;
      assert st4.table == st2.table[t := Closed(rec)] by {
        assert Closed(rec.(ending := true)) == Closed(rec);
      }
      EndFrameStep(st, t, st1, st2, st4);
    }
  }

  /** The step of `EndFrame` once the children are done: `t` was marked,
      its children ended below it, and `t` itself closed. */
  lemma EndFrameStep(st: State, t: TransId, st1: State, st2: State, st4: State)
    requires t in st.table && !st.table[t].ending
    requires forall c :: c in st.table[t].children ==> c in st.table && st.table[c].parent == Some(t)
    requires st1.table == st.table[t := st.table[t].(ending := true)]
    requires t in st2.table && st2.table[t] == st1.table[t]
    requires ChangesBelow(st1, st2, st.table[t].children)
    requires st4.table == st2.table[t := Closed(st.table[t])]
    ensures ChangesBelow(st, st4, [t])
  {
    var rec := st.table[t];
    forall x | x in st.table && x in st4.table && st4.table[x] != st.table[x]
      ensures x in [t] || ChangedAt(st, st4, st.table[x].parent)
    {
      if x != t {
        var q := st.table[x].parent;
        assert st4.table[x] == st2.table[x] && st1.table[x] == st.table[x];
        if x in rec.children {
          assert q == Some(t);
        } else {
          assert ChangedAt(st1, st2, q);
          assert q.value != t;
          assert st4.table[q.value] == st2.table[q.value] && st1.table[q.value] == st.table[q.value];
        }
      }
    }
  }

  /** Ending a list of children touches only them and what is below them. */
  lemma {:induction false} EndChildrenFrame(st: State, cs: seq<TransId>)
    requires Valid(st) && (forall c :: c in cs ==> c in st.table) && EndChildren(st, cs).Ok?
    ensures ChangesBelow(st, EndChildren(st, cs).value, cs)
    decreases NonEnding(st), 1, |cs|
  {
    if cs != [] {
      var p := End(st, cs[0]).value;
      EndFrame(st, cs[0]);
      var st2 := EndChildren(p.0, cs[1..]).value;
      EndChildrenFrame(p.0, cs[1..]);
      forall x | x in st.table && x in st2.table && st2.table[x] != st.table[x]
        ensures x in cs || ChangedAt(st, st2, st.table[x].parent)
      {
        var q := st.table[x].parent;
        if p.0.table[x] != st.table[x] {
          if x != cs[0] {
            assert ChangedAt(st, p.0, q);
            assert st2.table[q.value] == p.0.table[q.value];
          }
        } else if x !in cs[1..] {
          assert ChangedAt(p.0, st2, q);
        }
      }
    }
  }

  /** Ending `t` leaves every other root alone: its record is unchanged,
      and it stays registered, and on top, when it was. */
  lemma EndLeavesOtherRoots(st: State, t: TransId, x: TransId)
    requires Valid(st) && t in st.table && End(st, t).Ok?
    requires x in st.table && x != t && st.table[x].parent.None?
    ensures var st' := End(st, t).value.0;
      && st'.table[x] == st.table[x]
      && (Registered(st, x) ==> Registered(st', x))
      && (OnTop(st, x) ==> OnTop(st', x))
  {
    EndFrame(st, t);
    if OnTop(st, x) {
      ClosesOnlyKeepsOnTop(st, End(st, t).value.0, x);
    }
  }

  /** A transaction on top of its stack that was left alone is still on
      top, since stacks only lost entries from their tops. */
  lemma ClosesOnlyKeepsOnTop(st: State, st': State, x: TransId)
    requires ClosesOnly(st, st') && x in st.table && OnTop(st, x) && st'.table[x] == st.table[x]
    ensures OnTop(st', x)
  {
    var k := st.table[x].id.value.task;
    assert Registered(st', x);
    assert StackOf(st', k) <= StackOf(st, k);
    assert StackOf(st, k) == st.registry[k] && StackOf(st', k) == st'.registry[k];
  }

  /** `end` on `c` needs nothing from elsewhere: it has no children, and
      it is either ending already or on top of its task's stack. */
  ghost predicate ReadyLeaf(st: State, c: TransId) {
    c in st.table && st.table[c].children == [] && (st.table[c].ending || OnTop(st, c))
  }

  /** A ready leaf ends successfully. */
  lemma EndLeafOk(st: State, c: TransId)
    requires Valid(st) && ReadyLeaf(st, c)
    ensures End(st, c).Ok?
  {
    var rec := st.table[c];
    if !rec.ending {
      var st1 := st.(table := st.table[c := rec.(ending := true)]);
      assert OnTop(st1, c);
    }
  }

  /** Ending children that are all ready leaves succeeds. Ending one of
      them leaves the others ready: each is either closed now, hence
      ending, or untouched and still on top. */
  lemma {:induction false} EndChildrenLeavesOk(st: State, cs: seq<TransId>)
    requires Valid(st) && forall c :: c in cs ==> c in st.table && ReadyLeaf(st, c)
    ensures EndChildren(st, cs).Ok?
    decreases |cs|
  {
    if cs != [] {
      EndLeafOk(st, cs[0]);
      var st1 := End(st, cs[0]).value.0;
      forall c | c in cs[1..]
        ensures c in st1.table && ReadyLeaf(st1, c)
      {
        assert c in cs;
        if st1.table[c] == st.table[c] && !st.table[c].ending {
          ClosesOnlyKeepsOnTop(st, st1, c);
        }
      }
      EndChildrenLeavesOk(st1, cs[1..]);
    }
  }

  /** `end` on a transaction that is not ending, is an unbound root or on
      top of its task's stack, and whose children are ready leaves,
      succeeds and resolves its slot to the drain of its pending handles. */
  lemma {:induction false} EndWithLeafChildren(st: State, t: TransId)
    requires Valid(st) && t in st.table && !st.table[t].ending
    requires (st.table[t].id.None? && st.table[t].parent.None?) || OnTop(st, t)
    requires forall c :: c in st.table[t].children ==> ReadyLeaf(st, c)
    ensures End(st, t).Ok?
    ensures End(st, t).value.1 == Resolved(Drain(st.table[t].coros))
  {
    var rec := st.table[t];
    assert RecordOk(st, t);
    SetRecordValid(st, t, rec.(ending := true));
    var st1 := st.(table := st.table[t := rec.(ending := true)]);
    forall c | c in rec.children
      ensures ReadyLeaf(st1, c)
    {
      if c != t && !st.table[c].ending {
        assert OnTop(st, c);
        assert Registered(st1, c);
      }
    }
    EndChildrenLeavesOk(st1, rec.children);
    var st2 := EndChildren(st1, rec.children).value;
    assert st2.table[t] == rec.(ending := true);
    if rec.id.Some? {
      assert OnTop(st1, t);
      ClosesOnlyKeepsOnTop(st1, st2, t);
    }
    assert Finish(st2, t).Ok?;
    assert Closed(rec.(ending := true)) == Closed(rec);
  }

  /** Module-level `end`: end the current transaction, found by `get` with
      `None` as default; finding none fails calling `end` on `None`. */
  function EndCurrent(st: State, task: Option<TaskId>, current: Option<TaskId>): (r: Result<(State, Slot)>)
    requires Valid(st)
    ensures var key := ResolveTask(task, current);
      (key.None? || StackOf(st, key.value) == []) && st.context == [] ==> r == Err(NoneHasNoMethod)
    ensures r.Ok? ==> Valid(r.value.0) && ClosesOnly(st, r.value.0)
    ensures var g := Get(st, DefaultTo(None), task, current);
      g.Ok? && g.value.Some? ==>
        var x := g.value.value;
        && x in st.table
        && (st.table[x].ending ==> r == Ok((st, st.table[x].endSlot)))
        && (r.Err? ==> r.error == RegistryCorrupt || r.error == NeverCompletes)
        && (r.Ok? ==> r.value.0.table[x].ending && r.value.1 == r.value.0.table[x].endSlot)
        && (r.Ok? && !st.table[x].ending ==>
              r.value.0.table[x] == Closed(st.table[x]) && !Registered(r.value.0, x))
        && (r.Ok? ==> ChangesBelow(st, r.value.0, [x]))
  {
    var g := Get(st, DefaultTo(None), task, current);
    if g.Err? || g.value.None? then Err(NoneHasNoMethod)
    else
      assert g.value.value in st.table by {
        if |st.context| > 0 {
          assert st.context[|st.context| - 1] in st.table;
        }
      }
      var r := End(st, g.value.value);
      if r.Ok? then
        EndFrame(st, g.value.value);
        r
      else
        r
  }

  /** Module-level `wait`: drain the current transaction, found by `get`
      with `None` as default; finding none fails calling `wait` on `None`. */
  function WaitCurrent(st: State, task: Option<TaskId>, current: Option<TaskId>): (r: Result<(State, Option<Gather>)>)
    requires Valid(st)
    ensures var key := ResolveTask(task, current);
      (key.None? || StackOf(st, key.value) == []) && st.context == [] ==> r == Err(NoneHasNoMethod)
    ensures r.Ok? ==> Valid(r.value.0) && r.value.0.registry == st.registry
    ensures var g := Get(st, DefaultTo(None), task, current);
      g.Ok? && g.value.Some? ==>
        var x := g.value.value;
        && x in st.table
        && (r.Err? <==> !st.table[x].open)
        && (r.Err? ==> r.error == AlreadyClosed)
        && (r.Ok? ==> x in r.value.0.table && r.value.0.table[x].coros == []
                      && r.value.1 == Drain(st.table[x].coros))
        && (r.Ok? ==> r.value.0 == st.(table := st.table[x := st.table[x].(coros := [])]))
  {
    var g := Get(st, DefaultTo(None), task, current);
    if g.Err? || g.value.None? then Err(NoneHasNoMethod)
    else
      assert g.value.value in st.table by {
        if |st.context| > 0 {
          assert st.context[|st.context| - 1] in st.table;
        }
      }
      Wait(st, g.value.value)
  }

  /** A transaction with no parent that sits in some task's stack. */
  ghost predicate RegisteredRoot(st: State, t: TransId) {
    && t in st.table
    && st.table[t].parent.None?
    && exists k :: k in st.registry && t in st.registry[k]
  }

  /** `wait_all`: request `end` on exactly the registered transactions that
      have no parent; with none, the result is `None`. */
  method WaitAll(st: State) returns (r: Option<set<TransId>>)
    requires WellFormed(st)
    ensures r.None? <==> forall t :: !RegisteredRoot(st, t)
    ensures r.Some? ==> forall t :: t in r.value <==> RegisteredRoot(st, t)
  {
    var roots: set<TransId> := {};
    var todo := st.registry.Keys;
    ghost var done: set<TaskId> := {};
    while todo != {}
      invariant todo + done == st.registry.Keys && todo !! done
      invariant forall t :: t in roots <==>
        t in st.table && st.table[t].parent.None? && exists k :: k in done && t in st.registry[k]
      decreases todo
    {
      var k :| k in todo;
      var stack := st.registry[k];
      assert StackOk(st, k);
      var j := 0;
      while j < |stack|
        invariant 0 <= j <= |stack|
        invariant forall t :: t in roots <==>
          t in st.table && st.table[t].parent.None? && ((exists k' :: k' in done && t in st.registry[k']) || t in stack[..j])
      {
        var t := stack[j];
        if st.table[t].parent.None? {
          roots := roots + {t};
        }
        assert stack[..j + 1] == stack[..j] + [t];
        j := j + 1;
      }
      assert stack[..j] == stack;
      todo := todo - {k};
      done := done + {k};
    }
    forall t | RegisteredRoot(st, t)
      ensures t in roots
    {
      var k :| k in st.registry && t in st.registry[k];
      assert k in done;
    }
    if roots == {} {
      r := None;
    } else {
      var w :| w in roots;
      assert RegisteredRoot(st, w);
      r := Some(roots);
    }
  }
}

=== FILE: properties.dfy ===
/**
 Properties relating several operations: round trips through the registry
 and the context stack, what `add` leaves behind for `get` and `wait`,
 when `end` succeeds, and what the owner task's callback reports.
 */
module Properties {
  import opened Types
  import opened Registry
  import opened Transaction
  import opened Closing

  /** Two well-formed registries with the same stack for every task are
      the same map. */
  lemma {:induction false} RegistryExt(a: State, b: State)
    requires WellFormed(a) && WellFormed(b)
    requires forall k :: StackOf(a, k) == StackOf(b, k)
    ensures a.registry == b.registry
  {
    forall k
      ensures k in a.registry <==> k in b.registry
    {
      if k in a.registry {
        assert StackOk(a, k);
        assert StackOf(b, k) != [];
      }
      if k in b.registry {
        assert StackOk(b, k);
        assert StackOf(a, k) != [];
      }
    }
    forall k | k in a.registry
      ensures a.registry[k] == b.registry[k]
    {
      assert StackOf(a, k) == StackOf(b, k);
    }
  }

  /** Binding a transaction and then removing it gives the registry back. */
  lemma {:induction false} BindThenRemove(st: State, task: TaskId, t: TransId)
    requires WellFormed(st) && t in st.table && st.table[t].id.None?
    ensures Remove(Bind(st, task, t), t).Ok?
    ensures Remove(Bind(st, task, t), t).value.registry == st.registry
  {
    var st1 := Bind(st, task, t);
    assert OnTop(st1, t);
    var st2 := Remove(st1, t).value;
    forall k
      ensures StackOf(st2, k) == StackOf(st, k)
    {
      if k == task {
        assert StackOf(st1, task) == StackOf(st, task) + [t];
        assert (StackOf(st, task) + [t])[..|StackOf(st, task)|] == StackOf(st, task);
      }
    }
    RegistryExt(st2, st);
  }

  /** After `begin` under a task, `get` for that task finds the new
      transaction. */
  lemma GetAfterBegin(st: State, task: TaskId, parent: Option<TransId>, current: Option<TaskId>)
    requires Valid(st) && Allocated(st, task)
    requires parent.Some? ==> parent.value in st.table
    ensures var (st', t) := Begin(st, Some(task), current, parent);
      Get(st', NoDefault, Some(task), current) == Ok(Some(t))
  {
  }

  /** Leaving a scope right after entering it restores the state. */
  lemma EnterExit(st: State, t: TransId)
    ensures Exit(Enter(st, t)) == Ok(st)
  {
  }

  /** With no registry stack for the resolved task, a transaction entered
      as a scope is what `get` finds, default or not. */
  lemma GetAfterEnter(st: State, t: TransId, default: Default, task: Option<TaskId>, current: Option<TaskId>)
    requires var key := ResolveTask(task, current); key.None? || StackOf(st, key.value) == []
    ensures Get(Enter(st, t), default, task, current) == Ok(Some(t))
  {
  }

  /** A handle not in `prev` that occurs in `hs` survives de-duplication. */
  lemma {:induction false} DedupKeeps(prev: seq<TaskId>, hs: seq<TaskId>, h: TaskId)
    requires h in hs && h !in prev
    ensures h in Dedup(prev, hs)
    decreases |hs|
  {
    if hs[0] != h {
      assert h in hs[1..];
      if hs[0] in prev {
        DedupKeeps(prev, hs[1..], h);
      } else {
        DedupKeeps(prev + [hs[0]], hs[1..], h);
      }
    }
  }

  /** De-duplication leaves alone handles that are distinct and new. */
  lemma {:induction false} DedupOfFresh(prev: seq<TaskId>, hs: seq<TaskId>)
    requires NoDup(hs) && forall i :: 0 <= i < |hs| ==> hs[i] !in prev
    ensures Dedup(prev, hs) == hs
    decreases |hs|
  {
    if hs != [] {
      assert hs[0] !in prev;
      forall i | 0 <= i < |hs[1..]|
        ensures hs[1..][i] !in prev + [hs[0]]
      {
        assert hs[1..][i] == hs[i + 1];
      }
      DedupOfFresh(prev + [hs[0]], hs[1..]);
      assert hs == [hs[0]] + hs[1..];
    }
  }

  /** Every handle `add` newly appends can be looked up with `get` as a
      task, and the transaction found there is a child of the adder: the
      way a callback of an added future recovers its transaction. */
  lemma {:induction false} AddThenGet(st: State, t: TransId, items: seq<Item>, i: nat, current: Option<TaskId>)
    requires Valid(st) && t in st.table
    requires forall j :: 0 <= j < |items| ==> ItemOk(st, items[j])
    requires Add(st, t, items).Ok? && i < |items|
    requires Add(st, t, items).value.1[i] !in st.table[t].coros
    ensures var (st', out) := Add(st, t, items).value;
      var g := Get(st', NoDefault, Some(out[i]), current);
      && g.Ok? && g.value.Some? && g.value.value in st'.table
      && st'.table[g.value.value].parent == Some(t)
  {
    var (st', out) := AddAll(st, t, items);
    AddAllShape(st, t, items);
    DedupKeeps(st.table[t].coros, out, out[i]);
    AppendedHasChild(st, t, st', out, out[i]);
    GetTop(st', out[i], current);
  }

  /** A handle that `add` appended names a task whose top transaction is
      a child of the adder. */
  lemma AppendedHasChild(st: State, t: TransId, st': State, out: seq<TaskId>, h: TaskId)
    requires t in st.table && t in st'.table && Appended(st, t, st', out)
    requires h in Dedup(st.table[t].coros, out)
    ensures StackOf(st', h) != [] && Last(StackOf(st', h)) in st'.table
    ensures st'.table[Last(StackOf(st', h))].parent == Some(t)
  {
    var r := st.table[t];
    var r' := st'.table[t];
    var d := Dedup(r.coros, out);
    var m :| 0 <= m < |d| && d[m] == h;
    assert r'.coros[|r.coros| + m] == h;
    var c := r'.children[|r.children| + m];
    assert OnTop(st', c) && st'.table[c].id.value.task == h;
    assert StackOf(st', h) == st'.registry[h];
  }

  /** `get` for a task with a non-empty stack returns the top of it. */
  lemma GetTop(st: State, task: TaskId, current: Option<TaskId>)
    requires StackOf(st, task) != []
    ensures Get(st, NoDefault, Some(task), current) == Ok(Some(Last(StackOf(st, task))))
  {
  }

  /** With nothing pending beforehand, `wait` after `add` drains exactly
      the distinct handles `add` returned, in the order they first occur,
      and drains something whenever `add` was given anything. */
  lemma {:induction false} AddThenWait(st: State, t: TransId, items: seq<Item>)
    requires Valid(st) && t in st.table
    requires st.table[t].open && st.table[t].coros == []
    requires forall j :: 0 <= j < |items| ==> ItemOk(st, items[j])
    requires Add(st, t, items).Ok?
    ensures var (st', out) := Add(st, t, items).value;
      && Wait(st', t).Ok?
      && (items != [] ==> Wait(st', t).value.1 == Some(Gather(Dedup([], out))))
      && (items == [] ==> Wait(st', t).value.1 == None)
  {
    var (st', out) := Add(st, t, items).value;
    AddAllShape(st, t, items);
    AddAllFrame(st, t, items);
    assert st'.table[t].coros == Dedup([], out);
    if items != [] {
      DedupKeeps([], out, out[0]);
    }
  }

  /** Coroutines given to `add` each get a handle of their own, so with
      nothing pending beforehand `wait` drains exactly the handles `add`
      returned, all of them and in order. */
  lemma {:induction false} AddCorosThenWait(st: State, t: TransId, items: seq<Item>)
    requires Valid(st) && t in st.table
    requires st.table[t].open && !st.table[t].ending && st.table[t].coros == []
    requires st.table[t].id.Some? || t in st.context
    requires forall j :: 0 <= j < |items| ==> items[j].Coro?
    ensures Add(st, t, items).Ok?
    ensures var (st', out) := Add(st, t, items).value;
      && NoDup(out)
      && Wait(st', t).Ok?
      && Wait(st', t).value.1 == Drain(out)
      && (items != [] ==> Wait(st', t).value.1 == Some(Gather(out)))
  {
    assert forall j :: 0 <= j < |items| ==> ItemOk(st, items[j]);
    var (st', out) := Add(st, t, items).value;
    AddThenWait(st, t, items);
    assert NoDup(out);
    DedupOfFresh([], out);
  }

  /** A root begun under a task, given coroutines and then ended: `end`
      succeeds, ending the spawned children first, and its slot resolves
      to the combinator over exactly the handles `add` returned. */
  lemma {:induction false} BeginAddEnd(st: State, task: TaskId, items: seq<Item>)
    requires Valid(st) && Allocated(st, task)
    requires forall j :: 0 <= j < |items| ==> items[j].Coro?
    ensures var (st1, t) := Begin(st, Some(task), None, None);
      && Add(st1, t, items).Ok?
      && var (st2, out) := Add(st1, t, items).value;
      && End(st2, t).Ok?
      && End(st2, t).value.1 == Resolved(Drain(out))
      && (items != [] ==> End(st2, t).value.1 == Resolved(Some(Gather(out))))
  {
    var (st1, t) := Begin(st, Some(task), None, None);
    AddCorosThenEnd(st1, t, items);
  }

  /** A root on top of its task's stack with nothing pending and no
      children, given coroutines and then ended: `end` succeeds and
      resolves to the combinator over exactly the handles `add` returned. */
  lemma {:induction false} AddCorosThenEnd(st1: State, t: TransId, items: seq<Item>)
    requires Valid(st1) && t in st1.table && OnTop(st1, t)
    requires var r := st1.table[t];
      r.open && !r.ending && r.coros == [] && r.children == [] && r.parent.None?
    requires forall j :: 0 <= j < |items| ==> items[j].Coro?
    ensures Add(st1, t, items).Ok?
    ensures var (st2, out) := Add(st1, t, items).value;
      && End(st2, t).Ok?
      && End(st2, t).value.1 == Resolved(Drain(out))
      && (items != [] ==> End(st2, t).value.1 == Resolved(Some(Gather(out))))
  {
    assert forall j :: 0 <= j < |items| ==> ItemOk(st1, items[j]);
    var (st2, out) := AddAll(st1, t, items);
    assert Add(st1, t, items) == Ok((st2, out));
    AddAllShape(st1, t, items);
    AddAllFrame(st1, t, items);
    assert NoDup(out);
    assert Allocated(st1, st1.table[t].id.value.task);
    EndAfterAddingCoros(st1, t, st2, out);
  }

  /** The state after `add` appended the distinct new handles `out` to a
      root that had no pending handles and no children, and that is either
      unbound or on top of a task's stack that none of `out` is: `end`
      succeeds and resolves to the drain of `out`. */
  lemma {:induction false} EndAfterAddingCoros(st1: State, t: TransId, st2: State, out: seq<TaskId>)
    requires Valid(st2) && t in st1.table && t in st2.table
    requires Appended(st1, t, st2, out)
    requires st1.table[t].coros == [] && st1.table[t].children == []
    requires st2.table[t].id == st1.table[t].id
    requires !st2.table[t].ending && st2.table[t].parent.None?
    requires st1.table[t].id.None? || (OnTop(st1, t) && st1.table[t].id.value.task !in out)
    requires NoDup(out)
    ensures End(st2, t).Ok? && End(st2, t).value.1 == Resolved(Drain(out))
  {
    DedupOfFresh([], out);
    var r' := st2.table[t];
    assert r'.coros == out;
    if st1.table[t].id.Some? {
      var task := st1.table[t].id.value.task;
      assert StackOf(st2, task) == StackOf(st1, task) by {
        assert r'.coros[|st1.table[t].coros|..] == out;
      }
      assert OnTop(st2, t) by {
        assert StackOf(st1, task) == st1.registry[task];
        assert StackOf(st2, task) == st2.registry[task];
      }
    }
    AppendedChildrenReady(st1, t, st2, out);
    EndWithLeafChildren(st2, t);
  }

  /** A transaction begun outside any task and used as a context manager:
      inside the `with` block `get` finds it and `add` accepts coroutines;
      after the block `end` succeeds and resolves to the combinator over
      exactly the handles `add` returned. */
  lemma {:induction false} BeginEnterAddEnd(st: State, items: seq<Item>)
    requires Valid(st)
    requires forall j :: 0 <= j < |items| ==> items[j].Coro?
    ensures var (st1, t) := Begin(st, None, None, None);
      var st2 := Enter(st1, t);
      && Get(st2, NoDefault, None, None) == Ok(Some(t))
      && Valid(st2) && Add(st2, t, items).Ok?
      && var (st3, out) := Add(st2, t, items).value;
      && Exit(st3).Ok? && Valid(Exit(st3).value)
      && End(Exit(st3).value, t).Ok?
      && End(Exit(st3).value, t).value.1 == Resolved(Drain(out))
      && (items != [] ==> End(Exit(st3).value, t).value.1 == Resolved(Some(Gather(out))))
  {
    var (st1, t) := Begin(st, None, None, None);
    EnterValid(st1, t);
    EnteredAddExitEnd(Enter(st1, t), t, items);
  }

  /** An unbound root with nothing pending and no children, on top of the
      fallback context stack: `add` of coroutines succeeds, leaving the
      `with` block succeeds, and `end` afterwards resolves to the drain of
      the handles `add` returned. */
  lemma {:induction false} EnteredAddExitEnd(st2: State, t: TransId, items: seq<Item>)
    requires Valid(st2) && t in st2.table && st2.context != [] && Last(st2.context) == t
    requires var r := st2.table[t];
      r.open && !r.ending && r.coros == [] && r.children == [] && r.parent.None? && r.id.None?
    requires forall j :: 0 <= j < |items| ==> items[j].Coro?
    ensures Add(st2, t, items).Ok?
    ensures var (st3, out) := Add(st2, t, items).value;
      && Exit(st3).Ok? && Valid(Exit(st3).value)
      && End(Exit(st3).value, t).Ok?
      && End(Exit(st3).value, t).value.1 == Resolved(Drain(out))
  {
    assert forall j :: 0 <= j < |items| ==> ItemOk(st2, items[j]);
    var (st3, out) := AddAll(st2, t, items);
    assert Add(st2, t, items) == Ok((st3, out));
    AddAllShape(st2, t, items);
    AddAllFrame(st2, t, items);
    assert NoDup(out);
    ExitThenEnd(st2, t, st3, out);
  }

  /** Leaving the `with` block after `add` appended the distinct handles
      `out` to an unbound root with nothing pending and no children: the
      exit succeeds, and `end` afterwards resolves to the drain of `out`. */
  lemma {:induction false} ExitThenEnd(st2: State, t: TransId, st3: State, out: seq<TaskId>)
    requires Valid(st3) && t in st2.table && t in st3.table && st3.context != []
    requires Appended(st2, t, st3, out) && NoDup(out)
    requires st2.table[t].coros == [] && st2.table[t].children == [] && st2.table[t].id.None?
    requires st3.table[t].id.None? && !st3.table[t].ending && st3.table[t].parent.None?
    ensures Exit(st3).Ok? && Valid(Exit(st3).value)
    ensures End(Exit(st3).value, t).Ok? && End(Exit(st3).value, t).value.1 == Resolved(Drain(out))
  {
    ExitValid(st3);
    var st4 := Exit(st3).value;
    assert Appended(st2, t, st4, out) by {
      assert st4.table == st3.table && st4.registry == st3.registry;
    }
    EndAfterAddingCoros(st2, t, st4, out);
  }

  /** The children `add` spawned on a transaction that had none are fresh
      and on top of their handles' stacks, so `end` can end each at once. */
  lemma AppendedChildrenReady(st1: State, t: TransId, st2: State, out: seq<TaskId>)
    requires t in st1.table && t in st2.table && Appended(st1, t, st2, out)
    requires st1.table[t].children == []
    ensures forall c :: c in st2.table[t].children ==> ReadyLeaf(st2, c)
  {
    var r' := st2.table[t];
    forall c | c in r'.children
      ensures ReadyLeaf(st2, c)
    {
      var j :| 0 <= j < |r'.children| && r'.children[j] == c;
      assert st2.table[c].(id := None) == Fresh(Some(t));
    }
  }

  /** Draining twice in a row: the second drain finds nothing. */
  lemma WaitTwice(st: State, t: TransId)
    requires Valid(st) && t in st.table && Wait(st, t).Ok?
    ensures Wait(Wait(st, t).value.0, t) == Ok((Wait(st, t).value.0, None))
  {
    var st' := Wait(st, t).value.0;
    assert st'.(table := st'.table[t := st'.table[t].(coros := [])]) == st';
  }

  /** `end` is idempotent: the second call changes nothing and hands back
      the same slot. */
  lemma EndIdempotent(st: State, t: TransId)
    requires Valid(st) && t in st.table && End(st, t).Ok?
    ensures End(End(st, t).value.0, t) == End(st, t)
  {
  }

  /** Ending children that are all ending already changes nothing. */
  lemma {:induction false} EndChildrenAllEnding(st: State, cs: seq<TransId>)
    requires Valid(st) && forall c :: c in cs ==> c in st.table && st.table[c].ending
    ensures EndChildren(st, cs) == Ok(st)
    decreases |cs|
  {
    if cs != [] {
      assert End(st, cs[0]) == Ok((st, st.table[cs[0]].endSlot));
      EndChildrenAllEnding(st, cs[1..]);
    }
  }

  /** For a transaction whose children are all ended, `end` succeeds
      exactly when the transaction is an unbound root or the most recent
      one of its task: the `assert` in `remove` fails precisely when the
      last in, first out discipline per task is broken, and an unbound
      child waits for an owner task it never had. */
  lemma {:induction false} EndSucceedsIffOnTop(st: State, t: TransId)
    requires Valid(st) && t in st.table && !st.table[t].ending
    requires forall c :: c in st.table[t].children ==> c in st.table && st.table[c].ending
    ensures End(st, t).Ok? <==> (st.table[t].id.None? && st.table[t].parent.None?) || OnTop(st, t)
  {
    var rec := st.table[t];
    if rec.parent.Some? && rec.id.None? { return; }
    assert RecordOk(st, t);
    SetRecordValid(st, t, rec.(ending := true));
    var st1 := st.(table := st.table[t := rec.(ending := true)]);
    EndChildrenAllEnding(st1, rec.children);
    assert OnTop(st1, t) <==> OnTop(st, t);
  }

  /** `add`'s guard reads `not open` as the builtin, not the field; under
      the invariant that makes no difference, since a transaction that is
      not open is always ending. */
  lemma AddGuardQuirkHarmless(st: State, t: TransId)
    requires Valid(st) && t in st.table
    ensures (st.table[t].ending || !st.table[t].open) == (st.table[t].ending || AddGuardOpen())
  {
    assert RecordOk(st, t);
  }

  /** A root that is begun under a task and given a coroutine, whose task
      then finishes without `end`, is reported as a fatal leak. */
  lemma {:induction false} RootLeakIsFatal(st: State, task: TaskId, n: nat)
    requires Valid(st) && Allocated(st, task)
    ensures var (st1, t) := Begin(st, Some(task), None, None);
      && Add(st1, t, [Coro(n)]).Ok?
      && OwnerTaskDone(Add(st1, t, [Coro(n)]).value.0, Some(t)).1 == LeakError
  {
    var (st1, t) := Begin(st, Some(task), None, None);
    var (st2, out) := Add(st1, t, [Coro(n)]).value;
    AddAllShape(st1, t, [Coro(n)]);
    AddAllFrame(st1, t, [Coro(n)]);
    DedupKeeps([], out, out[0]);
  }

  /** A transaction spawned by `add` has a parent, so its leak is only
      ever a warning. */
  lemma ChildLeakOnlyWarns(st: State, t: TransId, c: TransId)
    requires Valid(st) && t in st.table && c in st.table[t].children && c in st.table
    ensures OwnerTaskDone(st, Some(c)).1 != LeakError
  {
    assert RecordOk(st, t);
  }

  /** Once `end` has run, the owner task finishing reports no leak. */
  lemma EndedNeverLeaks(st: State, t: TransId)
    requires Valid(st) && t in st.table && !st.table[t].ending && End(st, t).Ok?
    ensures OwnerTaskDone(End(st, t).value.0, Some(t)).1 in {Quiet, SignalAlreadySet}
  {
  }
}

=== FILE: registry.dfy ===
/**
 The per-task registry (`TRANSACTIONS`) and the fallback context stack
 (`TMP_CONTEXT`): binding a transaction to a task, removing it again, and
 the lookup of "the current transaction".
 */
module Registry {
  import opened Types

  /** The stack of transactions of task `k`; a missing key reads as empty. */
  function StackOf(st: State, k: TaskId): seq<TransId> {
    if k in st.registry then st.registry[k] else []
  }

  /** The stack of `k` is non-empty and its i-th entry carries id `(k, i)`. */
  ghost predicate StackOk(st: State, k: TaskId)
    requires k in st.registry
  {
    var s := st.registry[k];
    && |s| > 0
    && forall i :: 0 <= i < |s| ==> s[i] in st.table && st.table[s[i]].id == Some(Binding(k, i))
  }

  /** The registry invariant: no empty stacks, and every entry's id names
      the key and the position it sits at. */
  ghost predicate WellFormed(st: State) {
    forall k {:trigger StackOk(st, k)} :: k in st.registry ==> StackOk(st, k)
  }

  /** `t` sits in the registry at the position its id names. */
  ghost predicate Registered(st: State, t: TransId) {
    && t in st.table
    && st.table[t].id.Some?
    && var b := st.table[t].id.value;
    && b.task in st.registry
    && b.index < |st.registry[b.task]|
    && st.registry[b.task][b.index] == t
  }

  /** `t` is the most recently bound transaction of its task. */
  ghost predicate OnTop(st: State, t: TransId) {
    Registered(st, t) && st.table[t].id.value.index == |st.registry[st.table[t].id.value.task]| - 1
  }

  lemma {:induction false} EntryIsUnique(st: State, k: TaskId, i: nat, j: nat)
    requires WellFormed(st) && k in st.registry
    requires i < |st.registry[k]| && j < |st.registry[k]|
    requires st.registry[k][i] == st.registry[k][j]
    ensures i == j
  {
    assert StackOk(st, k);
    assert st.table[st.registry[k][i]].id == Some(Binding(k, i));
    assert st.table[st.registry[k][j]].id == Some(Binding(k, j));
  }

  /** Being on top survives any change that leaves the record and the
      stack of its task alone. */
  lemma OnTopFrame(a: State, b: State, c: TransId)
    requires OnTop(a, c) && c in b.table && b.table[c] == a.table[c]
    requires StackOf(b, a.table[c].id.value.task) == StackOf(a, a.table[c].id.value.task)
    ensures OnTop(b, c)
  {
    var k := a.table[c].id.value.task;
    assert StackOf(a, k) == a.registry[k];
  }

  /** Binding `t` leaves every other transaction registered or not as it
      was: the push only adds a position, and that position holds `t`. */
  lemma BindKeepsRegistered(st: State, task: TaskId, t: TransId, x: TransId)
    requires t in st.table && st.table[t].id.None? && x != t
    ensures Registered(Bind(st, task, t), x) <==> Registered(st, x)
  {
    var st' := Bind(st, task, t);
    if Registered(st', x) {
      var b := st.table[x].id.value;
      assert StackOf(st', b.task)[b.index] == x;
    }
    if Registered(st, x) {
      var b := st.table[x].id.value;
      assert StackOf(st, b.task)[b.index] == x;
    }
  }

  /** The successful part of `_set_transaction_id`: `t` gets the id
      `(task, length of the task's stack)` and is pushed on that stack. */
  function Bind(st: State, task: TaskId, t: TransId): (st': State)
    requires t in st.table && st.table[t].id.None?
    ensures st'.table.Keys == st.table.Keys && st'.context == st.context
    ensures st'.nextTrans == st.nextTrans && st'.nextSpawn == st.nextSpawn
    ensures st'.table[t] == st.table[t].(id := Some(Binding(task, |StackOf(st, task)|)))
    ensures forall x :: x in st.table && x != t ==> st'.table[x] == st.table[x]
    ensures StackOf(st', task) == StackOf(st, task) + [t]
    ensures forall k :: k != task ==> (k in st'.registry <==> k in st.registry) && StackOf(st', k) == StackOf(st, k)
    ensures task in st'.registry
    ensures WellFormed(st) ==> WellFormed(st') && OnTop(st', t)
  {
    var s := StackOf(st, task);
    var st' := st.(registry := st.registry[task := s + [t]],
                   table := st.table[t := st.table[t].(id := Some(Binding(task, |s|)))]);
    assert WellFormed(st) ==> WellFormed(st') by {
      if WellFormed(st) {
        forall k | k in st'.registry
          ensures StackOk(st', k)
        {
          if k != task {
            assert StackOk(st, k);
            forall i | 0 <= i < |st'.registry[k]|
              ensures st'.registry[k][i] != t
            {
              assert st.table[st.registry[k][i]].id.Some?;
            }
          } else if task in st.registry {
            assert StackOk(st, k);
            forall i | 0 <= i < |s|
              ensures s[i] != t
            {
              assert st.table[s[i]].id.Some?;
            }
          }
        }
      }
    }
    st'
  }

  /** `_set_transaction_id`: binding fails without a task or when the
      transaction already has an id; otherwise `t` is pushed on top of its
      task's stack with id `(task, old stack length)` and nothing else in
      the registry moves. */
  function SetTransactionId(st: State, task: Option<TaskId>, t: TransId): (r: Result<State>)
    requires t in st.table
    ensures task.None? ==> r == Err(NoCurrentTask)
    ensures task.Some? && st.table[t].id.Some? ==> r == Err(AlreadyBound)
    ensures r.Ok? <==> task.Some? && st.table[t].id.None?
    ensures r.Ok? ==>
      && r.value.table.Keys == st.table.Keys
      && r.value.table[t].id == Some(Binding(task.value, |StackOf(st, task.value)|))
      && StackOf(r.value, task.value) == StackOf(st, task.value) + [t]
      && (forall k :: k != task.value ==> StackOf(r.value, k) == StackOf(st, k))
      && (forall x :: x in st.table && x != t ==> r.value.table[x] == st.table[x])
    ensures r.Ok? && WellFormed(st) ==> WellFormed(r.value) && OnTop(r.value, t)
  {
    if task.None? then Err(NoCurrentTask)
    else if st.table[t].id.Some? then Err(AlreadyBound)
    else Ok(Bind(st, task.value, t))
  }

  /** `remove`: pop `t` from its task's stack, dropping the key once the
      stack is empty. A missing stack (`KeyError`) or a different
      transaction on top (the `assert`) is an internal fault. An unbound
      transaction is left alone. */
  function Remove(st: State, t: TransId): (r: Result<State>)
    requires t in st.table
    ensures st.table[t].id.None? ==> r == Ok(st)
    ensures r.Err? ==> r.error == RegistryCorrupt
    ensures WellFormed(st) ==> (r.Ok? <==> st.table[t].id.None? || OnTop(st, t))
    ensures r.Ok? ==>
      && r.value.registry.Keys <= st.registry.Keys
      && r.value.table == st.table && r.value.context == st.context
      && r.value.nextTrans == st.nextTrans && r.value.nextSpawn == st.nextSpawn
    ensures r.Ok? && st.table[t].id.Some? ==>
      var k := st.table[t].id.value.task;
      && |StackOf(st, k)| > 0
      && StackOf(r.value, k) == StackOf(st, k)[..|StackOf(st, k)| - 1]
      && (forall k' :: k' != k ==> (k' in r.value.registry <==> k' in st.registry) && StackOf(r.value, k') == StackOf(st, k'))
    ensures r.Ok? ==> forall x :: x != t ==> (Registered(r.value, x) <==> Registered(st, x))
    ensures r.Ok? ==> forall k :: StackOf(r.value, k) <= StackOf(st, k)
    ensures r.Ok? && WellFormed(st) ==> WellFormed(r.value) && !Registered(r.value, t)
  {
    match st.table[t].id
    case None => Ok(st)
    case Some(b) =>
      if b.task !in st.registry then Err(RegistryCorrupt)
      else
        var s := st.registry[b.task];
        if |s| == 0 || Last(s) != t then Err(RegistryCorrupt)
        else
          var rest := s[..|s| - 1];
          var st' := st.(registry := if |rest| == 0 then st.registry - {b.task} else st.registry[b.task := rest]);
          assert WellFormed(st) ==> WellFormed(st') && !Registered(st', t) by {
            if WellFormed(st) {
              assert StackOk(st, b.task);
              forall k | k in st'.registry
                ensures StackOk(st', k)
              {
                assert StackOk(st, k);
              }
              assert st.table[t].id == Some(Binding(b.task, |s| - 1));
              forall i | 0 <= i < |rest|
                ensures rest[i] != t
              {
                assert st.table[s[i]].id == Some(Binding(b.task, i));
              }
            }
          }
          assert WellFormed(st) && b.task in st.registry && |s| > 0 && Last(s) == t ==> OnTop(st, t) by {
            if WellFormed(st) && b.task in st.registry && |s| > 0 && Last(s) == t {
              assert StackOk(st, b.task);
            }
          }
          assert forall k :: StackOf(st', k) <= StackOf(st, k);
          assert forall x :: x != t && Registered(st, x) ==> Registered(st', x) by {
            forall x | x != t && Registered(st, x)
              ensures Registered(st', x)
            {
              var bx := st.table[x].id.value;
              if bx.task == b.task {
                assert bx.index != |s| - 1;
              }
            }
          }
          Ok(st')
  }

  /** What `get` was told to do when nothing is found. */
  datatype Default = NoDefault | DefaultTo(value: Option<TransId>)

  /** `task or current_task()`: an explicit task wins over the ambient one. */
  function ResolveTask(task: Option<TaskId>, current: Option<TaskId>): Option<TaskId> {
    if task.Some? then task else current
  }

  /** `get`: the top of the task's registry stack, else the top of the
      fallback context stack, else the default, else an error. */
  function Get(st: State, default: Default, task: Option<TaskId>, current: Option<TaskId>): (r: Result<Option<TransId>>)
    ensures r.Err? <==> (var key := ResolveTask(task, current);
                         (key.None? || StackOf(st, key.value) == []) && st.context == [] && default.NoDefault?)
    ensures r.Err? ==> r.error == NoTransaction
    ensures var key := ResolveTask(task, current);
      key.Some? && StackOf(st, key.value) != [] ==> r == Ok(Some(Last(StackOf(st, key.value))))
    ensures var key := ResolveTask(task, current);
      key.Some? && StackOf(st, key.value) != [] && WellFormed(st) ==>
        && r.Ok? && r.value.Some? && r.value.value in st.table
        && st.table[r.value.value].id == Some(Binding(key.value, |StackOf(st, key.value)| - 1))
    ensures var key := ResolveTask(task, current);
      (key.None? || StackOf(st, key.value) == []) && st.context != [] ==> r == Ok(Some(Last(st.context)))
    ensures var key := ResolveTask(task, current);
      (key.None? || StackOf(st, key.value) == []) && st.context == [] && default.DefaultTo? ==> r == Ok(default.value)
  {
    var key := ResolveTask(task, current);
    if key.Some? && key.value in st.registry && |st.registry[key.value]| > 0 then
      assert WellFormed(st) ==> StackOk(st, key.value);
      Ok(Some(Last(st.registry[key.value])))
    else if |st.context| > 0 then
      Ok(Some(Last(st.context)))
    else
      match default
      case NoDefault => Err(NoTransaction)
      case DefaultTo(v) => Ok(v)
  }

  /** `__enter__`: push `t` on the fallback context stack. */
  function Enter(st: State, t: TransId): (st': State)
    ensures st'.context != [] && Last(st'.context) == t
    ensures st'.context[..|st'.context| - 1] == st.context
    ensures st'.registry == st.registry && st'.table == st.table
  {
    st.(context := st.context + [t])
  }

  /** `__exit__`: pop the fallback context stack, whatever is on top;
      popping an empty stack raises. */
  function Exit(st: State): (r: Result<State>)
    ensures r.Err? <==> st.context == []
    ensures r.Err? ==> r.error == EmptyContext
    ensures r.Ok? ==> r.value.context + [Last(st.context)] == st.context
    ensures r.Ok? ==> r.value.registry == st.registry && r.value.table == st.table
  {
    if |st.context| == 0 then Err(EmptyContext)
    else Ok(st.(context := st.context[..|st.context| - 1]))
  }
}

=== FILE: transaction.dfy ===
/**
 The per-transaction state machine: construction and binding (`begin`,
 `__aenter__`), registering deferred work (`add`), draining it (`wait`)
 and the finalization callback of the owner task.
 */
module Transaction {
  import opened Types
  import opened Registry

  /** A handle that exists: spawned handles come from the state's counter. */
  ghost predicate Allocated(st: State, h: TaskId) {
    h.Spawned? ==> h.n < st.nextSpawn
  }

  /** The invariant every transaction record keeps. */
  ghost predicate RecordOk(st: State, t: TransId)
    requires t in st.table
  {
    var r := st.table[t];
    && t.n < st.nextTrans
    && (!r.open ==> r.ending && r.endSlot.Resolved?)
    && (r.id.Some? ==> (Registered(st, t) <==> r.open))
    && (r.parent.Some? ==> r.parent.value in st.table)
    && (forall c :: c in r.children ==> c in st.table && st.table[c].parent == Some(t))
    && NoDup(r.coros)
    && (forall h :: h in r.coros ==> Allocated(st, h))
  }

  /** The whole-state invariant: a well-formed registry, existing handles,
      consistent records and a context stack of existing transactions. */
  ghost predicate Valid(st: State) {
    && WellFormed(st)
    && (forall k :: k in st.registry ==> Allocated(st, k))
    && (forall t {:trigger RecordOk(st, t)} :: t in st.table ==> RecordOk(st, t))
    && (forall i :: 0 <= i < |st.context| ==> st.context[i] in st.table)
  }

  /** Replacing one record keeps the invariant when the fields the
      registry and the other records depend on stay as they were. */
  lemma {:induction false} SetRecordValid(st: State, t: TransId, r': Trans)
    requires Valid(st) && t in st.table
    requires r'.id == st.table[t].id && r'.parent == st.table[t].parent && r'.open == st.table[t].open
    requires !r'.open ==> r'.ending && r'.endSlot.Resolved?
    requires forall c :: c in r'.children ==> c in st.table && st.table[c].parent == Some(t)
    requires NoDup(r'.coros) && forall h :: h in r'.coros ==> Allocated(st, h)
    ensures Valid(st.(table := st.table[t := r']))
  {
    var st' := st.(table := st.table[t := r']);
    forall k | k in st'.registry
      ensures StackOk(st', k)
    {
      assert StackOk(st, k);
    }
    forall x | x in st'.table
      ensures RecordOk(st', x)
    {
      assert RecordOk(st, x);
      if x != t && st'.table[x].open && st'.table[x].id.Some? {
        assert Registered(st, x);
      }
      if x == t && r'.open && r'.id.Some? {
        assert Registered(st, t);
      }
    }
  }

  /** A freshly constructed transaction (`__init__` with no id). */
  function Fresh(parent: Option<TransId>): Trans {
    Trans(None, true, false, [], parent, [], Pending, false)
  }

  /** Allocate a new transaction object. */
  function NewTrans(st: State, parent: Option<TransId>): (res: (State, TransId))
    requires Valid(st)
    requires parent.Some? ==> parent.value in st.table
    ensures res.1 !in st.table && res.0.table.Keys == st.table.Keys + {res.1}
    ensures res.0.table[res.1] == Fresh(parent)
    ensures forall x :: x in st.table ==> res.0.table[x] == st.table[x]
    ensures res.0.registry == st.registry && res.0.context == st.context && res.0.nextSpawn == st.nextSpawn
    ensures Valid(res.0)
  {
    var t := TransId(st.nextTrans);
    assert t !in st.table by {
      forall x | x in st.table
        ensures x.n < st.nextTrans
      {
        assert RecordOk(st, x);
      }
    }
    var st' := st.(table := st.table[t := Fresh(parent)], nextTrans := st.nextTrans + 1);
    assert Valid(st') by {
      forall k | k in st'.registry
        ensures StackOk(st', k)
      {
        assert StackOk(st, k);
      }
      forall x | x in st'.table
        ensures RecordOk(st', x)
      {
        if x != t {
          assert RecordOk(st, x);
          if st'.table[x].open && st'.table[x].id.Some? {
            assert Registered(st, x);
          }
        }
      }
    }
    (st', t)
  }

  /** Binding an open transaction to an existing task keeps the invariant. */
  lemma {:induction false} BindValid(st: State, task: TaskId, t: TransId)
    requires Valid(st) && t in st.table && st.table[t].id.None? && st.table[t].open && Allocated(st, task)
    ensures Valid(Bind(st, task, t))
  {
    var st' := Bind(st, task, t);
    forall x | x in st'.table
      ensures RecordOk(st', x)
    {
      assert RecordOk(st, x);
      if x != t {
        BindKeepsRegistered(st, task, t, x);
      }
    }
  }

  /** Entering a scope keeps the invariant: only the context stack
      moves, and it gains an existing transaction. */
  lemma {:induction false} EnterValid(st: State, t: TransId)
    requires Valid(st) && t in st.table
    ensures Valid(Enter(st, t))
  {
    var st' := Enter(st, t);
    forall k | k in st'.registry
      ensures StackOk(st', k)
    {
      assert StackOk(st, k);
    }
    forall x | x in st'.table
      ensures RecordOk(st', x)
    {
      assert RecordOk(st, x);
      assert Registered(st', x) <==> Registered(st, x);
    }
    forall i | 0 <= i < |st'.context|
      ensures st'.context[i] in st'.table
    {
      if i < |st.context| {
        assert st'.context[i] == st.context[i];
      }
    }
  }

  /** Leaving a scope keeps the invariant: the context stack only loses
      its top. */
  lemma {:induction false} ExitValid(st: State)
    requires Valid(st) && Exit(st).Ok?
    ensures Valid(Exit(st).value)
  {
    var st' := Exit(st).value;
    forall k | k in st'.registry
      ensures StackOk(st', k)
    {
      assert StackOk(st, k);
    }
    forall x | x in st'.table
      ensures RecordOk(st', x)
    {
      assert RecordOk(st, x);
      assert Registered(st', x) <==> Registered(st, x);
    }
    forall i | 0 <= i < |st'.context|
      ensures st'.context[i] in st'.table
    {
      assert st'.context[i] == st.context[i];
    }
  }

  /** `begin`: a new open transaction with `parent`, bound to the explicit
      task or else the ambient one; with neither it stays unbound. */
  function Begin(st: State, task: Option<TaskId>, current: Option<TaskId>, parent: Option<TransId>): (res: (State, TransId))
    requires Valid(st)
    requires parent.Some? ==> parent.value in st.table
    requires ResolveTask(task, current).Some? ==> Allocated(st, ResolveTask(task, current).value)
    ensures Valid(res.0)
    ensures res.1 !in st.table && res.0.table.Keys == st.table.Keys + {res.1}
    ensures forall x :: x in st.table ==> res.0.table[x] == st.table[x]
    ensures var r := res.0.table[res.1];
      r.open && !r.ending && r.coros == [] && r.children == [] && r.parent == parent && r.endSlot == Pending && !r.taskEnded
    ensures var key := ResolveTask(task, current);
      key.None? ==> res.0.table[res.1].id.None? && res.0.registry == st.registry
    ensures var key := ResolveTask(task, current);
      key.Some? ==>
        && res.0.table[res.1].id == Some(Binding(key.value, |StackOf(st, key.value)|))
        && StackOf(res.0, key.value) == StackOf(st, key.value) + [res.1]
        && OnTop(res.0, res.1)
        && forall k :: k != key.value ==> StackOf(res.0, k) == StackOf(st, k)
    ensures res.0.context == st.context && res.0.nextSpawn == st.nextSpawn
  {
    var (st1, t) := NewTrans(st, parent);
    var key := ResolveTask(task, current);
    if key.Some? then
      BindValid(st1, key.value, t);
      (Bind(st1, key.value, t), t)
    else
      (st1, t)
  }

  /** `__aenter__`: bind an unbound transaction to the ambient task, failing
      when there is none; a bound transaction is returned as it is. Looking
      up the ambient task reads `loop`, which `end` deleted, so on an
      unbound transaction that was already ended it fails first. */
  function AEnter(st: State, t: TransId, current: Option<TaskId>): (r: Result<State>)
    requires Valid(st) && t in st.table
    requires current.Some? ==> Allocated(st, current.value)
    ensures st.table[t].id.Some? ==> r == Ok(st)
    ensures st.table[t].id.None? ==> (r.Err? <==> current.None? || !st.table[t].open)
    ensures st.table[t].id.None? && !st.table[t].open ==> r == Err(FieldDeleted)
    ensures st.table[t].id.None? && st.table[t].open && current.None? ==> r == Err(NoCurrentTask)
    ensures r.Ok? ==> Valid(r.value) && r.value.table.Keys == st.table.Keys && r.value.table[t].id.Some?
    ensures st.table[t].id.None? && r.Ok? ==>
      && r.value.table[t].open
      && r.value.table[t].id.value.task == current.value && OnTop(r.value, t)
    ensures st.table[t].id.None? && r.Ok? ==> r.value == Bind(st, current.value, t)
    ensures st.table[t].id.None? && r.Ok? ==>
      && r.value.table == st.table[t := st.table[t].(id := Some(Binding(current.value, |StackOf(st, current.value)|)))]
      && StackOf(r.value, current.value) == StackOf(st, current.value) + [t]
      && (forall k :: k != current.value ==> StackOf(r.value, k) == StackOf(st, k))
      && r.value.context == st.context
      && r.value.nextTrans == st.nextTrans && r.value.nextSpawn == st.nextSpawn
  {
    if st.table[t].id.Some? then Ok(st)
    else if !st.table[t].open then Err(FieldDeleted)
    else if current.None? then Err(NoCurrentTask)
    else
      BindValid(st, current.value, t);
      Ok(Bind(st, current.value, t))
  }

  /** `ensure_future`: a future or task is its own handle; a coroutine is
      wrapped in a new task with a handle nobody has seen yet. */
  function Schedule(st: State, item: Item): (res: (State, TaskId))
    ensures item.Future? ==> res == (st, item.handle)
    ensures item.Coro? ==> !Allocated(st, res.1) && Allocated(res.0, res.1)
    ensures res.0.nextSpawn >= st.nextSpawn
    ensures res.0.registry == st.registry && res.0.table == st.table
    ensures res.0.context == st.context && res.0.nextTrans == st.nextTrans
  {
    match item
    case Future(h) => (st, h)
    case Coro(_) => (st.(nextSpawn := st.nextSpawn + 1), Spawned(st.nextSpawn))
  }

  /** A future handed to `add` is an object that exists. */
  ghost predicate ItemOk(st: State, item: Item) {
    item.Future? ==> Allocated(st, item.handle)
  }

  /** Scheduling allocates at most a handle, so the invariant survives. */
  lemma {:induction false} ScheduleValid(st: State, item: Item)
    requires Valid(st)
    ensures Valid(Schedule(st, item).0)
  {
    var st1 := Schedule(st, item).0;
    forall k | k in st1.registry
      ensures StackOk(st1, k)
    {
      assert StackOk(st, k);
    }
    forall x | x in st1.table
      ensures RecordOk(st1, x)
    {
      assert RecordOk(st, x);
      if st1.table[x].open && st1.table[x].id.Some? {
        assert Registered(st, x);
      }
    }
  }

  /** The body of `add` for an item whose handle `h` is not yet pending:
      begin a child bound to `h` whose parent is `t`, then append the child
      and the handle to `t`. */
  function Spawn(st: State, t: TransId, h: TaskId): (res: (State, TransId))
    requires Valid(st) && t in st.table && Allocated(st, h) && h !in st.table[t].coros
    ensures Valid(res.0)
    ensures res.0.nextSpawn == st.nextSpawn && res.0.context == st.context
    ensures res.0.table.Keys == st.table.Keys + {res.1}
    ensures forall x :: x in st.table && x != t ==> res.0.table[x] == st.table[x]
    ensures res.1 !in st.table
    ensures res.0.table[t] == st.table[t].(children := st.table[t].children + [res.1], coros := st.table[t].coros + [h])
    ensures res.0.table[res.1].parent == Some(t)
    ensures res.0.table[res.1].(id := None) == Fresh(Some(t))
    ensures res.0.table[res.1].id == Some(Binding(h, |StackOf(st, h)|))
    ensures OnTop(res.0, res.1)
    ensures StackOf(res.0, h) == StackOf(st, h) + [res.1]
    ensures forall k :: k != h ==> StackOf(res.0, k) == StackOf(st, k)
  {
    var rec := st.table[t];
    var (st2, c) := Begin(st, Some(h), None, Some(t));
    var rec3 := rec.(children := rec.children + [c], coros := rec.coros + [h]);
    var st3 := st2.(table := st2.table[t := rec3]);
    assert Valid(st3) by {
      assert RecordOk(st, t);
      assert st2.table[t] == rec;
      assert NoDup(rec3.coros);
      assert forall x :: x in rec3.children ==> x in st2.table && st2.table[x].parent == Some(t);
      SetRecordValid(st2, t, rec3);
    }
    assert OnTop(st3, c) by {
      OnTopFrame(st2, st3, c);
    }
    (st3, c)
  }

  /** One iteration of the loop of `add`. A handle already pending is
      returned as it is; otherwise the item is scheduled and a child is
      spawned for its handle. */
  function AddOne(st: State, t: TransId, item: Item): (res: (State, TaskId))
    requires Valid(st) && t in st.table && ItemOk(st, item)
    ensures Valid(res.0)
    ensures item.Future? ==> res.1 == item.handle
    ensures item.Coro? ==> !Allocated(st, res.1)
    ensures Allocated(res.0, res.1)
    ensures res.0.nextSpawn >= st.nextSpawn && res.0.context == st.context
    ensures st.table.Keys <= res.0.table.Keys
    ensures forall x :: x in st.table && x != t ==> res.0.table[x] == st.table[x]
    ensures var r := st.table[t];
      res.0.table[t].(coros := r.coros, children := r.children) == r
  {
    var rec := st.table[t];
    if item.Future? && item.handle in rec.coros then (st, item.handle)
    else
      var (st1, h) := Schedule(st, item);
      assert RecordOk(st, t);
      ScheduleValid(st, item);
      var (st3, c) := Spawn(st1, t, h);
      (st3, h)
  }

  /** What one iteration of `add` does: a handle already pending changes
      nothing; a new one is appended together with exactly one new child,
      which has the adder as parent and is on top of that handle's stack,
      and no other stack moves. */
  lemma AddOneShape(st: State, t: TransId, item: Item)
    requires Valid(st) && t in st.table && ItemOk(st, item)
    ensures var res := AddOne(st, t, item);
      res.1 in st.table[t].coros ==> res.0 == st
    ensures var res := AddOne(st, t, item);
      res.1 !in st.table[t].coros ==> Step(st, t, res.1, res.0)
  {
    var item' := item;
    if !(item.Future? && item.handle in st.table[t].coros) {
      assert RecordOk(st, t);
      ScheduleValid(st, item);
    }
  }

  /** The effect of one iteration of `add` that appends the new handle `h`. */
  ghost predicate Step(st: State, t: TransId, h: TaskId, st1: State)
    requires t in st.table && t in st1.table
  {
    var r := st.table[t]; var r' := st1.table[t];
    && |r'.children| > 0
    && var c := Last(r'.children);
    && r' == r.(children := r.children + [c], coros := r.coros + [h])
    && c !in st.table && c in st1.table
    && st1.table[c].parent == Some(t)
    && st1.table[c].(id := None) == Fresh(Some(t))
    && st1.table[c].id == Some(Binding(h, |StackOf(st, h)|))
    && OnTop(st1, c)
    && StackOf(st1, h) == StackOf(st, h) + [c]
    && forall k :: k != h ==> StackOf(st1, k) == StackOf(st, k)
  }

  /** `add`'s de-duplicated handles, in order: the handles of `hs` that are
      neither in `prev` nor earlier in `hs`. */
  function Dedup(prev: seq<TaskId>, hs: seq<TaskId>): seq<TaskId>
    decreases |hs|
  {
    if hs == [] then []
    else if hs[0] in prev then Dedup(prev, hs[1..])
    else [hs[0]] + Dedup(prev + [hs[0]], hs[1..])
  }

  /** The loop of `add` over its items, in order: one handle out per item,
      a future standing for itself, and a coroutine getting a handle that
      did not exist before and that no other output shares. */
  function AddAll(st: State, t: TransId, items: seq<Item>): (res: (State, seq<TaskId>))
    requires Valid(st) && t in st.table
    requires forall i :: 0 <= i < |items| ==> ItemOk(st, items[i])
    ensures Valid(res.0)
    ensures |res.1| == |items| && st.table.Keys <= res.0.table.Keys
    ensures forall i :: 0 <= i < |items| && items[i].Future? ==> res.1[i] == items[i].handle
    ensures res.0.nextSpawn >= st.nextSpawn
    ensures forall i :: 0 <= i < |items| ==> Allocated(res.0, res.1[i])
    ensures forall i :: 0 <= i < |items| && items[i].Coro? ==> !Allocated(st, res.1[i])
    ensures forall i, j :: 0 <= i < |items| && 0 <= j < |items| && i != j && items[j].Coro? ==>
      res.1[i] != res.1[j]
    decreases |items|
  {
    if items == [] then (st, [])
    else
      var (st1, h) := AddOne(st, t, items[0]);
      assert forall i :: 0 <= i < |items[1..]| ==> ItemOk(st1, items[1..][i]) by {
        forall i | 0 <= i < |items[1..]|
          ensures ItemOk(st1, items[1..][i])
        {
          assert ItemOk(st, items[i + 1]);
        }
      }
      var (st2, hs) := AddAll(st1, t, items[1..]);
      HandlesStep(st, st1, st2, items, h, hs);
      (st2, [h] + hs)
  }

  /** The inductive step of the handle facts of `AddAll`, over the values
      only. */
  lemma {:induction false} HandlesStep(st: State, st1: State, st2: State, items: seq<Item>, h: TaskId, hs: seq<TaskId>)
    requires items != [] && |hs| == |items| - 1
    requires forall i :: 0 <= i < |items| ==> ItemOk(st, items[i])
    requires items[0].Coro? ==> !Allocated(st, h)
    requires items[0].Future? ==> h == items[0].handle
    requires forall i :: 0 <= i < |hs| && items[1..][i].Future? ==> hs[i] == items[1..][i].handle
    requires Allocated(st1, h) && st2.nextSpawn >= st1.nextSpawn >= st.nextSpawn
    requires forall i :: 0 <= i < |hs| ==> Allocated(st2, hs[i])
    requires forall i :: 0 <= i < |hs| && items[1..][i].Coro? ==> !Allocated(st1, hs[i])
    requires forall i, j :: 0 <= i < |hs| && 0 <= j < |hs| && i != j && items[1..][j].Coro? ==> hs[i] != hs[j]
    ensures var out := [h] + hs;
      && (forall i :: 0 <= i < |items| && items[i].Future? ==> out[i] == items[i].handle)
      && (forall i :: 0 <= i < |items| ==> Allocated(st2, out[i]))
      && (forall i :: 0 <= i < |items| && items[i].Coro? ==> !Allocated(st, out[i]))
      && (forall i, j :: 0 <= i < |items| && 0 <= j < |items| && i != j && items[j].Coro? ==> out[i] != out[j])
  {
    var out := [h] + hs;
    forall i | 0 <= i < |items|
      ensures items[i].Future? ==> out[i] == items[i].handle
      ensures Allocated(st2, out[i])
      ensures items[i].Coro? ==> !Allocated(st, out[i])
    {
      if i > 0 {
        assert out[i] == hs[i - 1] && items[1..][i - 1] == items[i];
      }
    }
    forall i, j | 0 <= i < |items| && 0 <= j < |items| && i != j && items[j].Coro?
      ensures out[i] != out[j]
    {
      assert ItemOk(st, items[i]);
      if i > 0 && j > 0 {
        assert out[i] == hs[i - 1] && out[j] == hs[j - 1] && items[1..][j - 1] == items[j];
      } else if i == 0 {
        assert out[j] == hs[j - 1] && items[1..][j - 1] == items[j];
      } else {
        assert out[i] == hs[i - 1] && items[1..][i - 1] == items[i];
      }
    }
  }

  /** The loop of `add` touches no transaction but the adder, and of the
      adder only its pending handles and children. */
  lemma {:induction false} AddAllFrame(st: State, t: TransId, items: seq<Item>)
    requires Valid(st) && t in st.table
    requires forall i :: 0 <= i < |items| ==> ItemOk(st, items[i])
    ensures var st' := AddAll(st, t, items).0;
      && st'.nextSpawn >= st.nextSpawn && st'.context == st.context
      && st.table.Keys <= st'.table.Keys
      && (forall x :: x in st.table && x != t ==> st'.table[x] == st.table[x])
      && st'.table[t].(coros := st.table[t].coros, children := st.table[t].children) == st.table[t]
    decreases |items|
  {
    if items != [] {
      var (st1, h) := AddOne(st, t, items[0]);
      assert forall i :: 0 <= i < |items[1..]| ==> ItemOk(st1, items[1..][i]) by {
        forall i | 0 <= i < |items[1..]|
          ensures ItemOk(st1, items[1..][i])
        {
          assert ItemOk(st, items[i + 1]);
        }
      }
      AddAllFrame(st1, t, items[1..]);
      assert AddAll(st, t, items).0 == AddAll(st1, t, items[1..]).0;
    }
  }

  /** From `st` to `st'` the loop of `add` with output `out` appended to
      `t`'s pending handles its output with the already pending ones and
      repeats dropped; each new handle comes with exactly one new child,
      paired in order, whose parent is the adder and which is on top of the
      stack of that handle. No other stack moves. */
  ghost predicate Appended(st: State, t: TransId, st': State, out: seq<TaskId>)
    requires t in st.table && t in st'.table
  {
    var r := st.table[t]; var r' := st'.table[t];
    && r'.coros == r.coros + Dedup(r.coros, out)
    && |r'.children| - |r.children| == |r'.coros| - |r.coros|
    && r'.children[..|r.children|] == r.children
    && (forall j :: |r.children| <= j < |r'.children| ==>
          var c := r'.children[j];
          && c !in st.table && c in st'.table
          && st'.table[c].parent == Some(t)
          && st'.table[c].(id := None) == Fresh(Some(t))
          && st'.table[c].id.Some?
          && st'.table[c].id.value.task == r'.coros[|r.coros| + j - |r.children|]
          && OnTop(st', c))
    && (forall k :: k !in r'.coros[|r.coros|..] ==> StackOf(st', k) == StackOf(st, k))
  }

  /** What the loop of `add` does to the adder and the registry. */
  lemma {:induction false} AddAllShape(st: State, t: TransId, items: seq<Item>)
    requires Valid(st) && t in st.table
    requires forall i :: 0 <= i < |items| ==> ItemOk(st, items[i])
    ensures Appended(st, t, AddAll(st, t, items).0, AddAll(st, t, items).1)
    decreases |items|
  {
    if items != [] {
      var (st1, h) := AddOne(st, t, items[0]);
      AddOneShape(st, t, items[0]);
      assert forall i :: 0 <= i < |items[1..]| ==> ItemOk(st1, items[1..][i]) by {
        forall i | 0 <= i < |items[1..]|
          ensures ItemOk(st1, items[1..][i])
        {
          assert ItemOk(st, items[i + 1]);
        }
      }
      AddAllShape(st1, t, items[1..]);
      AddAllFrame(st1, t, items[1..]);
      var (st2, hs) := AddAll(st1, t, items[1..]);
      assert AddAll(st, t, items) == (st2, [h] + hs);
      assert RecordOk(st2, t);
      AddAllStep(st, t, h, st1, hs, st2);
    }
  }

  /** The inductive step of `AddAllShape`: one item's effects followed by
      the rest's compose into the effects on the whole list. */
  lemma {:induction false} AddAllStep(st: State, t: TransId, h: TaskId, st1: State, hs: seq<TaskId>, st2: State)
    requires t in st.table && st.table.Keys <= st1.table.Keys <= st2.table.Keys
    requires forall x :: x in st1.table && x != t ==> st2.table[x] == st1.table[x]
    requires NoDup(st2.table[t].coros)
    requires h in st.table[t].coros ==> st1 == st
    requires h !in st.table[t].coros ==> Step(st, t, h, st1)
    requires Appended(st1, t, st2, hs)
    ensures Appended(st, t, st2, [h] + hs)
  {
    var r := st.table[t];
    var r1 := st1.table[t];
    var r' := st2.table[t];
    assert ([h] + hs)[0] == h && ([h] + hs)[1..] == hs;
    if h in r.coros {
      assert Dedup(r.coros, [h] + hs) == Dedup(r.coros, hs);
    } else {
      AppendStep(st, t, h, st1, hs, st2);
    }
  }

  /** `AddAllStep` for a handle that gets appended. */
  lemma {:induction false} AppendStep(st: State, t: TransId, h: TaskId, st1: State, hs: seq<TaskId>, st2: State)
    requires t in st.table && st.table.Keys <= st1.table.Keys <= st2.table.Keys
    requires forall x :: x in st1.table && x != t ==> st2.table[x] == st1.table[x]
    requires NoDup(st2.table[t].coros)
    requires h !in st.table[t].coros && Step(st, t, h, st1)
    requires Appended(st1, t, st2, hs)
    ensures Appended(st, t, st2, [h] + hs)
  {
    AppendStepLists(st, t, h, st1, hs, st2);
    AppendStepChildren(st, t, h, st1, hs, st2);
    AppendStepStacks(st, t, h, st1, hs, st2);
  }

  /** The appended handles and children line up. */
  lemma {:induction false} AppendStepLists(st: State, t: TransId, h: TaskId, st1: State, hs: seq<TaskId>, st2: State)
    requires t in st.table && st.table.Keys <= st1.table.Keys <= st2.table.Keys
    requires h !in st.table[t].coros && Step(st, t, h, st1)
    requires Appended(st1, t, st2, hs)
    ensures var r := st.table[t]; var r' := st2.table[t];
      && r'.coros == r.coros + Dedup(r.coros, [h] + hs)
      && |r'.children| - |r.children| == |r'.coros| - |r.coros|
      && r'.children[..|r.children|] == r.children
  {
    var r := st.table[t];
    var r1 := st1.table[t];
    var r' := st2.table[t];
    assert ([h] + hs)[0] == h && ([h] + hs)[1..] == hs;
    assert Dedup(r.coros, [h] + hs) == [h] + Dedup(r.coros + [h], hs);
    assert r'.children[..|r.children|] == r.children by {
      assert r'.children[..|r1.children|] == r1.children;
    }
  }

  /** Every child appended during the loop, the first one included, is a
      new child of the adder on top of its handle's stack. */
  lemma {:induction false} AppendStepChildren(st: State, t: TransId, h: TaskId, st1: State, hs: seq<TaskId>, st2: State)
    requires t in st.table && st.table.Keys <= st1.table.Keys <= st2.table.Keys
    requires forall x :: x in st1.table && x != t ==> st2.table[x] == st1.table[x]
    requires NoDup(st2.table[t].coros)
    requires h !in st.table[t].coros && Step(st, t, h, st1)
    requires Appended(st1, t, st2, hs)
    ensures var r := st.table[t]; var r' := st2.table[t];
      forall j :: |r.children| <= j < |r'.children| ==>
          var c := r'.children[j];
          && c !in st.table && c in st2.table
          && st2.table[c].parent == Some(t)
          && st2.table[c].(id := None) == Fresh(Some(t))
          && st2.table[c].id.Some?
          && st2.table[c].id.value.task == r'.coros[|r.coros| + j - |r.children|]
          && OnTop(st2, c)
  {
    var r := st.table[t];
    var r1 := st1.table[t];
    var r' := st2.table[t];
    AppendStepChild(st, t, h, st1, hs, st2);
    forall j | |r.children| <= j < |r'.children|
      ensures var c := r'.children[j];
          && c !in st.table && c in st2.table
          && st2.table[c].parent == Some(t)
          && st2.table[c].(id := None) == Fresh(Some(t))
          && st2.table[c].id.Some?
          && st2.table[c].id.value.task == r'.coros[|r.coros| + j - |r.children|]
          && OnTop(st2, c)
    {
      if j > |r.children| {
        assert |r1.children| <= j;
        assert |r1.coros| + j - |r1.children| == |r.coros| + j - |r.children|;
      }
    }
  }

  /** The child of the appended handle stays on top of that handle's
      stack through the rest of the loop. */
  lemma {:induction false} AppendStepChild(st: State, t: TransId, h: TaskId, st1: State, hs: seq<TaskId>, st2: State)
    requires t in st.table && st.table.Keys <= st1.table.Keys <= st2.table.Keys
    requires forall x :: x in st1.table && x != t ==> st2.table[x] == st1.table[x]
    requires NoDup(st2.table[t].coros)
    requires h !in st.table[t].coros && Step(st, t, h, st1)
    requires Appended(st1, t, st2, hs)
    ensures var c := Last(st1.table[t].children);
      && st2.table[t].children[|st.table[t].children|] == c
      && st2.table[t].coros[|st.table[t].coros|] == h
      && c !in st.table && c in st2.table
      && st2.table[c].parent == Some(t)
      && st2.table[c].(id := None) == Fresh(Some(t))
      && st2.table[c].id.Some? && st2.table[c].id.value.task == h
      && OnTop(st2, c)
  {
    var r := st.table[t];
    var r1 := st1.table[t];
    var r' := st2.table[t];
    var c := Last(r1.children);
    assert r'.children[|r.children|] == c by {
      assert r'.children[..|r1.children|] == r1.children;
    }
    assert r'.coros[|r.coros|] == h;
    assert h !in r'.coros[|r1.coros|..] by {
      forall q | |r1.coros| <= q < |r'.coros|
        ensures r'.coros[q] != h
      {
        assert r'.coros[|r.coros|] == h;
      }
    }
    assert StackOf(st2, h) == StackOf(st1, h);
    assert st2.table[c] == st1.table[c];
    assert OnTop(st2, c) by {
      assert OnTop(st1, c);
      assert StackOf(st1, h) == st1.registry[h];
      assert StackOf(st2, h) == st2.registry[h];
    }
  }

  /** Only the stacks of the appended handles move. */
  lemma {:induction false} AppendStepStacks(st: State, t: TransId, h: TaskId, st1: State, hs: seq<TaskId>, st2: State)
    requires t in st.table && st.table.Keys <= st1.table.Keys <= st2.table.Keys
    requires h !in st.table[t].coros && Step(st, t, h, st1)
    requires Appended(st1, t, st2, hs)
    ensures forall k :: k !in st2.table[t].coros[|st.table[t].coros|..] ==> StackOf(st2, k) == StackOf(st, k)
  {
    var r := st.table[t];
    var r1 := st1.table[t];
    var r' := st2.table[t];
    assert r'.coros[|r.coros|..] == [h] + r'.coros[|r1.coros|..];
  }

  /** `add`: fails on an unbound transaction that is not on the context
      stack, and on an ending one (the guard's `not open` names the builtin
      `open` and never holds); otherwise runs the loop over the items. The
      error message for an ending transaction formats it with `__repr__`,
      which reads `coros`; once `end` has deleted that field, the
      formatting itself fails. */
  function Add(st: State, t: TransId, items: seq<Item>): (r: Result<(State, seq<TaskId>)>)
    requires Valid(st) && t in st.table
    requires forall i :: 0 <= i < |items| ==> ItemOk(st, items[i])
    ensures r.Err? <==> (st.table[t].id.None? && t !in st.context) || st.table[t].ending
    ensures st.table[t].id.None? && t !in st.context ==> r == Err(NotAssociated)
    ensures (st.table[t].id.Some? || t in st.context) && st.table[t].ending && st.table[t].open ==> r == Err(AddWhileEnding)
    ensures (st.table[t].id.Some? || t in st.context) && !st.table[t].open ==> r == Err(FieldDeleted)
    ensures r.Ok? ==>
      && Valid(r.value.0) && |r.value.1| == |items|
      && forall i :: 0 <= i < |items| && items[i].Future? ==> r.value.1[i] == items[i].handle
    ensures r.Ok? ==>
      && (forall i :: 0 <= i < |items| ==> Allocated(r.value.0, r.value.1[i]))
      && (forall i :: 0 <= i < |items| && items[i].Coro? ==> !Allocated(st, r.value.1[i]))
      && (forall i, j :: 0 <= i < |items| && 0 <= j < |items| && i != j && items[j].Coro? ==>
            r.value.1[i] != r.value.1[j])
  {
    var rec := st.table[t];
    assert RecordOk(st, t);
    if rec.id.None? && t !in st.context then Err(NotAssociated)
    else if rec.ending || AddGuardOpen() then
      if rec.open then Err(AddWhileEnding) else Err(FieldDeleted)
    else Ok(AddAll(st, t, items))
  }

  /** The truth value of `not open` in `add`'s guard, where `open` is the
      builtin function object rather than the field: always false. */
  function AddGuardOpen(): bool { false }

  /** The drain of `wait`: a combinator over the pending handles, or nothing. */
  function Drain(coros: seq<TaskId>): Option<Gather> {
    if |coros| > 0 then Some(Gather(coros)) else None
  }

  /** `wait`: fails on a closed transaction; otherwise hands out a
      combinator over exactly the pending handles and forgets them, without
      touching `open` or `ending`. */
  function Wait(st: State, t: TransId): (r: Result<(State, Option<Gather>)>)
    requires Valid(st) && t in st.table
    ensures r.Err? <==> !st.table[t].open
    ensures r.Err? ==> r.error == AlreadyClosed
    ensures r.Ok? ==>
      && Valid(r.value.0)
      && r.value.0.table.Keys == st.table.Keys
      && r.value.0.table[t] == st.table[t].(coros := [])
      && (forall x :: x in st.table && x != t ==> r.value.0.table[x] == st.table[x])
      && r.value.0.registry == st.registry && r.value.0.context == st.context
    ensures r.Ok? ==> r.value.0 == st.(table := st.table[t := st.table[t].(coros := [])])
    ensures r.Ok? ==> (r.value.1.Some? <==> st.table[t].coros != [])
    ensures r.Ok? && r.value.1.Some? ==> r.value.1.value.handles == st.table[t].coros
  {
    var rec := st.table[t];
    if !rec.open then Err(AlreadyClosed)
    else
      assert RecordOk(st, t);
      SetRecordValid(st, t, rec.(coros := []));
      Ok((st.(table := st.table[t := rec.(coros := [])]), Drain(rec.coros)))
  }

  /** What the owner task's done-callback reports. */
  datatype Verdict =
    | Quiet              // nothing to report
    | LeakWarning        // left open with pending work, but it has a parent
    | LeakError          // a root left open with pending work: raises
    | SignalAlreadySet   // the task-ended signal was resolved before: raises

  /** `_owner_task_finalization_cb`. `tref` is the weak reference: `None`
      once the transaction is gone. The task-ended signal is always set; a
      leak is reported only for an open transaction with pending handles. */
  function OwnerTaskDone(st: State, tref: Option<TransId>): (res: (State, Verdict))
    requires Valid(st)
    requires tref.Some? ==> tref.value in st.table
    ensures Valid(res.0)
    ensures tref.None? ==> res == (st, Quiet)
    ensures tref.Some? ==>
      && res.0.table.Keys == st.table.Keys
      && res.0.table[tref.value] == st.table[tref.value].(taskEnded := true)
      && (forall x :: x in st.table && x != tref.value ==> res.0.table[x] == st.table[x])
      && res.0.registry == st.registry && res.0.context == st.context
    ensures res.1 == SignalAlreadySet <==> tref.Some? && st.table[tref.value].taskEnded
    ensures res.1 == LeakError <==>
      && tref.Some? && !st.table[tref.value].taskEnded
      && st.table[tref.value].open && st.table[tref.value].coros != [] && st.table[tref.value].parent.None?
    ensures res.1 == LeakWarning <==>
      && tref.Some? && !st.table[tref.value].taskEnded
      && st.table[tref.value].open && st.table[tref.value].coros != [] && st.table[tref.value].parent.Some?
  {
    match tref
    case None => (st, Quiet)
    case Some(t) =>
      var rec := st.table[t];
      if rec.taskEnded then (st, SignalAlreadySet)
      else
        assert RecordOk(st, t);
        SetRecordValid(st, t, rec.(taskEnded := true));
        var st' := st.(table := st.table[t := rec.(taskEnded := true)]);
        if rec.open && |rec.coros| > 0 then
          (st', if rec.parent.Some? then LeakWarning else LeakError)
        else
          (st', Quiet)
  }
}

=== FILE: types.dfy ===
/**
 Values shared by the task registry and the transaction state machine.

 The scheduler's tasks and futures are opaque identities compared by
 equality; the results they eventually produce are never looked at.
 */
module Types {

  datatype Option<+T> = None | Some(value: T)

  /** Identity of a task or future. A handle created by `add` when it
      schedules a bare coroutine is `Spawned`, numbered by a counter of the
      state so that it is fresh; every other task or future (the tasks
      that open transactions, futures built by user code) is `External`. */
  datatype TaskId = Spawned(n: nat) | External(n: nat)

  /** Object identity of a transaction. */
  datatype TransId = TransId(n: nat)

  /** The `id` of a bound transaction: its owner task and its position in
      that task's stack of transactions. */
  datatype Binding = Binding(task: TaskId, index: nat)

  /** An argument of `add`: a coroutine object that still has to be
      scheduled, or a future or task that already has an identity. */
  datatype Item = Coro(name: nat) | Future(handle: TaskId)

  /** The scheduler's wait-for-all combinator over some handles; awaiting
      it yields their results in order or re-raises the first failure. */
  datatype Gather = Gather(handles: seq<TaskId>)

  /** The completion slot (`ending_fut`) of a transaction. It resolves to
      the combinator draining the pending handles, or to nothing when no
      handle was pending. */
  datatype Slot = Pending | Resolved(drained: Option<Gather>)

  /** The bookkeeping fields of one transaction. `taskEnded` is the
      owner-task-ended signal (`task_ending_fut`). */
  datatype Trans = Trans(
    id: Option<Binding>,
    open: bool,
    ending: bool,
    coros: seq<TaskId>,
    parent: Option<TransId>,
    children: seq<TransId>,
    endSlot: Slot,
    taskEnded: bool)

  /** The process-wide state: the per-task registry, every transaction
      object, the fallback context stack (last element on top), and the
      counters that hand out fresh identities. */
  datatype State = State(
    registry: map<TaskId, seq<TransId>>,
    table: map<TransId, Trans>,
    context: seq<TransId>,
    nextTrans: nat,
    nextSpawn: nat)

  /** The exceptions the core raises, one constructor per raise site. */
  datatype Error =
    | NoCurrentTask       // binding found no task
    | AlreadyBound        // binding a transaction that has an id
    | NotAssociated       // add on an unbound transaction outside the context stack
    | AddWhileEnding      // add on an ending transaction
    | AlreadyClosed       // wait on a closed transaction
    | NoTransaction       // get found nothing and had no default
    | NoneHasNoMethod     // module-level end/wait when get returned None
    | EmptyContext        // leaving a scope with an empty context stack
    | RegistryCorrupt     // remove found its stack missing or itself not on top
    | FieldDeleted        // reading a field that end deleted (AttributeError)
    | NeverCompletes      // end waits for an owner-task signal nothing will set

  datatype Result<+T> = Ok(value: T) | Err(error: Error) {
    predicate IsFailure() { Err? }

    function PropagateFailure<U>(): Result<U>
      requires Err?
    {
      Err(error)
    }

    function Extract(): T
      requires Ok?
    {
      value
    }
  }

  function Last<T>(s: seq<T>): T
    requires |s| > 0
  {
    s[|s| - 1]
  }

  /** No handle occurs twice. */
  predicate NoDup<T(==)>(s: seq<T>) {
    forall i, j :: 0 <= i < j < |s| ==> s[i] != s[j]
  }
}
